=== FILE: README.md ===
# alc: the rendering core, in Dafny

`alc` looks a word up on the eow.alc.co.jp dictionary site and prints the
result page in colour on a terminal. Everything it does between receiving
the parsed page and writing its lines is modelled here as pure functions:

- the `--range` option `N:M` becomes a window `(begin, end)`. This goes through
  the `(\d+):(\d+)` regular expression, its `$1`/`$2` substitution, and
  `strconv.Atoi` (module `Window`, on top of `Numerals` and `Regex`);
- headwords are numbered from 1 inside each `#resultsList`, and only those whose
  position lies in the window are printed (`Window.Positions`, `Window.Shown`,
  `Render.HeadwordLines`);
- the text of every `.attr` node is cleaned up: each `【レベル】<digits>、` is
  deleted and each `【＠】` becomes `【カナ】` (module `AttrText`);
- a `div` content node is dispatched three ways: word classes, lists, or the
  node itself (`Render.DivLines`);
- `displayContent` prints one of two things. It prints a numbered line per list
  item, where each `br` becomes a newline plus an indent as wide as the label.
  Otherwise it prints the whole text once, where each `br` becomes a bare
  newline (`Render.DisplayContent`);
- the suggestion block is a header line, then the link texts joined by `", "`
  after a tab (`Render.SuggestionLines`);
- `.ex_sentence` and `.kana` elements are removed before anything is read
  (`Html.Prune`).

The page is an immutable tree: `Html.Node` is either a text node, or an element
with a tag, an id, a set of classes and children. Each goquery query the program
uses is a function over that tree:
- `Find` returns the descendants, in document order;
- `Next()` returns the next element sibling, skipping text nodes;
- `Text()` returns all text nodes, concatenated.

The program's output is a sequence of lines (`Render.Line`). Each line is a
sequence of pieces, and each piece is plain text or text painted in one of the
four colours the program uses; the escape codes stay opaque. `Render.Page` is
the whole run for one fetched page and one option value. An option that does not
parse yields `Failure`: the program panics before it flushes its buffered
output, so nothing is printed.

Modules: `Wrappers` (Option/Result), `Numerals` (`Itoa`, `Atoi`), `Strings`
(`Join`, `Split`), `Regex` (the three patterns and `ReplaceAllString`), `AttrText`,
`Window`, `Html`, `Render`.

## Model

| member | source | states |
|---|---|---|
| Numerals.Atoi | main.go:83-90 | `Atoi` succeeds exactly on an optional sign followed by one or more decimal digits whose value fits in a 64-bit `int`, and then yields that value |
| Numerals.ParseUint | main.go:83-90 | the unsigned digit loop `Atoi` runs on the text after its sign; `Numerals.ParseDigitsMeaning` gives its meaning |
| Numerals.ParseDigits | main.go:83-90 | the digit loop: any value it returns is within 2^64-1; `Numerals.ParseDigitsMeaning` gives when it succeeds |
| Numerals.ParseDigitsMeaning | main.go:83-90 | the digit loop behind `Atoi` succeeds exactly when every character is a digit and the running value stays within 2^64-1; on all-digit input it can only fail with a range error |
| Numerals.AtoiNumeral | main.go:83-90 | a bare numeral reads as its value, or as a range error when that value exceeds the largest `int` |
| Numerals.Itoa | main.go:33 | the item label `strconv.Itoa(i + 1)` is a numeral with no leading zero |
| Numerals.ValueOfItoa | main.go:33 | reading the digits of `Itoa(n)` back gives `n` |
| Numerals.AtoiItoa | main.go:33 | `Atoi` inverts `Itoa` on every number that fits in an `int` |
| Numerals.ItoaWidth | main.go:33-35 | labels 1-9 are one digit wide and 10-99 are two, which sets the item indent width |
| Strings.Join | main.go:127 | `strings.Join`: `Strings.SplitJoin` reads the parts back from it and `Strings.JoinLength` gives its length |
| Strings.Spaces | main.go:35 | `strings.Repeat(" ", n)`: exactly `n` characters, each a space |
| Strings.SplitJoin | main.go:127 | splitting `strings.Join(texts, ", ")` at `", "` gives the texts back when there is at least one text and none contains a comma; no texts read back as one empty text |
| Strings.JoinLength | main.go:127 | a joined line is as long as its parts plus one separator between each pair |
| Strings.JoinMerge | main.go:40-43 | joining the runs of two adjacent pieces of text is joining each piece's runs and concatenating |
| Regex.MatchLen | main.go:79-81 | the length of the match anchored at the start of a text, or 0; `Regex.LongestMatch` shows it is the longest prefix in the pattern's language |
| Regex.ReplaceAll | main.go:83 | `ReplaceAllString`, a left-to-right scan; `Regex.ReplaceAllMatchFree`, `Regex.ReplaceAllAtMatch` and `Regex.ReplaceAllSplit` give its meaning |
| Regex.Step | main.go:83 | one step of the scan always consumes at least one character and no more than is left; `Regex.ReplaceAllAtMatch` and `Regex.ReplaceAllMatchFree` give what it emits |
| Regex.LongestMatch | main.go:79-81 | the match length used at each position is a match of the pattern, and no longer prefix matches, so leftmost-first equals longest for these three patterns |
| Regex.LongestRangeMatch | main.go:79 | `(\d+):(\d+)` takes two maximal digit runs around one colon, and no longer prefix is an `N:M` |
| Regex.RangeWitnessBound | main.go:79 | any `N:M` prefix is no longer than the match found |
| Regex.LongestLevelMatch | main.go:80 | `【レベル】\d+、` matches the label, a maximal digit run and the comma, and nothing longer |
| Regex.ReplaceAllMatchFree | main.go:83 | `ReplaceAllString` leaves text where no match starts unchanged |
| Regex.ReplaceAllAtMatch | main.go:97-98 | a match at the front is replaced by its expansion and the scan resumes right after it |
| Regex.ReplaceAllWhole | main.go:83 | a text that is one whole match becomes its expansion |
| Regex.ReplaceAllSplit | main.go:97-98 | for the level and kana patterns, text before a `【` is rewritten independently of text from the `【` on |
| Regex.BracketStopsMatch | main.go:80-81 | a level or kana match never runs into a following `【`-led text |
| Regex.MatchFreeFromLanguage | main.go:79-81 | text with no substring in the pattern's language has no match anywhere |
| Regex.Submatch | main.go:83-87 | the text `$1` or `$2` stands for; `Window.ParseNumerals` gives its meaning for the range option |
| Regex.Expand | main.go:83-87 | the replacement template with `$1` or `$2` filled in; `Window.ParseNumerals` gives its meaning for the range option |
| AttrText.StripLevel | main.go:97 | deleting level markers; `AttrText.StripLevelDeletesMarker` and `AttrText.StripLevelUnmarked` give its meaning |
| AttrText.RelabelKana | main.go:98 | relabelling kana marks; `AttrText.RelabelKanaReplacesMarker` and `AttrText.RelabelKanaUnmarked` give its meaning |
| AttrText.RewriteAttr | main.go:97-99 | the level deletion, then the kana relabelling, as `AttrText.LevelExample`, `AttrText.KanaExample` and `AttrText.SinglePassExample` show |
| AttrText.LevelMarkerMatches | main.go:80 | a `【レベル】<digits>、` marker is matched exactly, whatever follows it |
| AttrText.StripLevelDeletesMarker | main.go:97 | each level marker is deleted, and the text on either side is rewritten as if the marker were absent |
| AttrText.StripLevelUnmarked | main.go:97 | text containing no level marker is printed unchanged |
| AttrText.StripLevelUnmarkedShort | main.go:97 | text without any `【`, or too short to hold the label, is unchanged |
| AttrText.RelabelKanaReplacesMarker | main.go:98 | each `【＠】` becomes `【カナ】`, and the text on either side is rewritten as if the mark were absent |
| AttrText.RelabelKanaUnmarked | main.go:98 | text containing no `【＠】` is unchanged |
| AttrText.RelabelKanaUnmarkedShort | main.go:98 | text without any `【` is unchanged |
| AttrText.LevelExample | main.go:97-99 | `【レベル】3、foo` is printed as `foo` |
| AttrText.KanaExample | main.go:97-99 | `【＠】` is printed as `【カナ】` |
| AttrText.SinglePassExample | main.go:97 | deletion is a single left-to-right pass: a marker formed by a deletion survives |
| Window.ParseRange | main.go:79-90 | the two bounds of the option; `Window.ParseNumerals`, `Window.ParseWithoutColon`, `Window.RangeFreeUnchanged` and `Window.RejectsThreeFields` give its meaning |
| Window.ParseNumerals | main.go:79-90 | `N:M` with two numerals gives `(N, M)`, or a range error when either does not fit in an `int` |
| Window.ParseRangeRoundTrip | main.go:83-90 | printing two numbers as `N:M` and parsing gives them back |
| Window.DefaultRangeParses | main.go:49 | the default `1:3` is the window (1, 3) |
| Window.ParseWithoutColon | main.go:83-90 | an option without a colon is read whole by `Atoi` for both bounds, so `5` shows only headword 5 |
| Window.RangeFreeUnchanged | main.go:83-87 | text in which no colon stands between two digits holds no `N:M`, so both the `$1` and the `$2` substitution leave it as it is |
| Window.RejectsWord | main.go:83-86 | `abc` aborts the program |
| Window.RejectsThreeFields | main.go:83-90 | `1:3:5` leaves `1:5` after substitution, which aborts the program |
| Window.Positions | main.go:92-93 | every listed position is between 1 and the number of headwords; `Window.PositionsMeaning` says which are listed |
| Window.InWindow | main.go:93 | the test `begin <= _i+1 && _i+1 <= end` on a 1-based position; `Window.PositionsMeaning` and `Window.ShownFromStep` give its meaning |
| Window.PositionsMeaning | main.go:92-93 | a 1-based position is listed exactly when it exists and `begin <= p <= end` |
| Window.PositionsIncreasing | main.go:92-93 | listed positions increase strictly: document order, each once |
| Window.EmptyWindow | main.go:93 | when `begin > end` or `end < 1`, no position passes the test |
| Window.Shown | main.go:92-93 | the shown headwords are exactly those at the listed positions, in order |
| Window.ShownFromStep | main.go:92-93 | a headword joins the shown run exactly when its position passes the window test |
| Html.Matches | main.go:30 | the selector test: a class, the id, a tag, or for `parent > child` the child's tag and the parent's |
| Html.Find | main.go:30 | `Find` on one node: its descendants that match, not the node itself; `Html.FindIn` states what every hit satisfies |
| Html.FindAll | main.go:102 | `Find` on a selection: each node's hits in turn |
| Html.NextElement | main.go:95 | `Next()` is empty exactly when no later sibling is an element, and is otherwise the first later sibling that is an element |
| Html.FindIn | main.go:30 | every node `Find` returns passes the element half of the selector (for `p > c`, the child's tag only) and carries at most one next sibling; `Html.ChildrenOfFound` and `Render.NoListsNoItems` state the parent half for the list selectors |
| Html.RenderIn | main.go:34-43 | the text once every `br` has been replaced; `Html.RenderIsJoin` gives its meaning |
| Html.ChildrenOfFound | main.go:30 | under a parent outside the tags, and with no tagged element inside another, the `p > c` children of the `p` elements found are exactly the `p > c` hits of the whole forest, in order |
| Html.FindAllAppend | main.go:102 | `Find` on two selections one after the other is `Find` on the first, then on the second |
| Html.TextIn | main.go:37 | `Text()`; `Html.TextIsJoin` and `Html.TextIsRenderWithoutBreaks` give its meaning |
| Html.TextOf | main.go:94-97 | `Text()` of one node, as used for headwords, attributes, word classes and links; `Html.TextIsJoin` gives its meaning |
| Html.RenderIsJoin | main.go:34-43 | text with every `br` replaced by a string is the runs between breaks joined by that string |
| Html.RenderOfIsJoin | main.go:34-37 | the same for one list item |
| Html.RenderSelectionIsJoin | main.go:40-43 | the same for a whole selection |
| Html.RenderOf | main.go:37 | `li.Text()` after its `br`s were replaced; `Html.RenderOfIsJoin` gives its meaning |
| Html.RenderSelection | main.go:43 | `content.Text()` after its `br`s were replaced; `Html.RenderSelectionIsJoin` gives its meaning |
| Html.TextIsJoin | main.go:37 | `Text()` of a tree whose `br`s are empty is its runs concatenated |
| Html.TextIsRenderWithoutBreaks | main.go:37 | `Text()` equals rendering with each `br` replaced by nothing |
| Html.SegmentsPerBreak | main.go:34-41 | a forest has one more run of text than it has `br` elements |
| Html.SegmentsOfPerBreak | main.go:34-36 | an item has one more run than the `br`s `Find("br")` returns for it |
| Html.Prune | main.go:75-77 | the removal of `.ex_sentence` and `.kana`: noise is gone (`Html.PruneRemovesNoise`), clean trees are untouched (`Html.PruneKeepsClean`), each tree is pruned on its own so clean siblings survive (`Html.PruneInAppend`), and pruning twice changes nothing (`Html.PruneIdempotent`) |
| Html.PruneIn | main.go:75-77 | the forest walk that removes every noise node wherever it sits; `Html.PruneRemovesNoise`, `Html.PruneKeepsClean` and `Html.PruneInAppend` give its meaning |
| Html.PruneRemovesNoise | main.go:75-77 | after removal no `.ex_sentence` or `.kana` node is left anywhere |
| Html.PruneKeepsClean | main.go:75-77 | a tree with no such node is left untouched |
| Html.PruneIdempotent | main.go:75-77 | removing twice is removing once |
| Html.PruneInAppend | main.go:75-77 | each tree of a forest is pruned on its own: removing a noise node takes none of its siblings with it |
| Render.DisplayContent | main.go:29-45 | `displayContent` always prints at least one line |
| Render.ItemLine | main.go:33-37 | the line of one list item; `Render.ItemLineMeaning` gives its meaning |
| Render.ItemLines | main.go:32-38 | the `li.Each` loop, items numbered from 1; `Render.ListPath` and `Render.ItemLineMeaning` give its meaning |
| Render.ItemLineMeaning | main.go:33-37 | line k starts with the grey label `k.`, which reads back as k. Then come a space and the item's runs, joined by a newline plus `len(k) + 2` spaces |
| Render.ListPath | main.go:30-38 | with list items present, exactly one line per `ol > li, ul > li`, in document order, the k-th built from item k |
| Render.PlainPath | main.go:39-44 | without list items, exactly one line: the selection's runs joined by bare newlines |
| Render.ItemIndentAligns | main.go:35 | the continuation indent is as wide as the label `k. `; for items 1-9 it is a newline and three spaces |
| Render.ItemBreak | main.go:35 | the string each item `br` becomes; `Render.ItemIndentAligns` gives its meaning |
| Render.HeadwordLines | main.go:92-117 | the entries of one results list; `Render.HeadwordWindow` gives its meaning |
| Render.ResultsLines | main.go:91-119 | each results list numbered from 1; `Render.EmptyWindowPrintsNothing` covers the empty window |
| Render.HeadwordWindow | main.go:92-94 | within a results list, the printed entries are exactly the shown headwords, in order |
| Render.HeadwordWindowFrom | main.go:92-93 | the same from any starting position, numbering continuing from it |
| Render.EmptyWindowPrintsNothing | main.go:91-93 | with `begin > end` or `end < 1`, no results list prints anything |
| Render.EntryLines | main.go:94-115 | one shown entry; `Render.EntryShape` and `Render.EntryLabels` give its meaning |
| Render.AttrLines | main.go:96-100 | one yellow line per `.attr` node, as `Render.EntryShape` states |
| Render.IsDiv | main.go:101 | `content.Is("div")`: some node of the selection is a `div` element |
| Render.DivLines | main.go:101-115 | the three-way dispatch; `Render.WordClassSplit`, `Render.DivLists`, `Render.DivPlain`, `Render.EntryLabels` and `Render.DivLinesNonEmpty` give its meaning |
| Render.EntryShape | main.go:94-101 | an entry is the red headword, then one yellow line per `.attr` with its rewritten text. Further lines follow exactly when the content is a `div` |
| Render.DivLinesNonEmpty | main.go:101-115 | a `div` content always prints at least one body line |
| Render.WordClassLines | main.go:103-107 | the word-class path; `Render.WordClassSplit` and `Render.WordClassLabels` give its meaning |
| Render.WordClassSplit | main.go:104-107 | each word class's label is followed at once by the `displayContent` of the element after it, between the lines of the word classes before it and after it |
| Render.WordClassLinesAppend | main.go:104-107 | each word class prints independently of the others: the lines of two runs of word classes are the lines of the first, then those of the second |
| Render.NoListsNoItems | main.go:30 | under a parent that is not a list, a tree with no `ul` or `ol` holds no `ol > li, ul > li` item |
| Render.ItemsOfLists | main.go:109-111 | under a parent that is not a list, and with no list inside another, the `ol > li, ul > li` items of the `ul, ol` elements found are exactly those of the whole tree |
| Render.DivLists | main.go:108-111 | a `div` with no word class, at least one list and no list inside another prints `displayContent` of the `div` itself when it holds list items. Otherwise it prints one line, the lists' runs of text joined by bare newlines |
| Render.DivPlain | main.go:108-114 | a `div` with neither word classes nor lists prints exactly one line, its own runs of text joined by bare newlines |
| Render.EntryLabels | main.go:101-115 | the blue label lines of an entry are the texts of its `.wordclass` nodes, in document order, when its content is a `div`; any other content has none |
| Render.WordClassLabels | main.go:103-107 | the word-class path prints each word class's text as a label, in order, and no other label |
| Render.DisplayContentHasNoLabel | main.go:29-45 | `displayContent` never prints a line shaped like a word-class label |
| Render.SuggestionLines | main.go:121-128 | the suggestion blocks; `Render.SuggestionShape` gives its meaning |
| Render.HitTexts | main.go:123-126 | the texts of the `a` links of one block; `Render.SuggestionShape` gives its meaning |
| Render.SuggestionShape | main.go:121-127 | each `#sas_word` block prints the header and one tab-led line of link texts joined by `", "`. The texts read back from that line when there is at least one text and none holds a comma |
| Render.SuggestionAt | main.go:121-127 | lines 2i and 2i+1 are block i's header and link line |
| Render.SuggestionCount | main.go:121-128 | two lines per suggestion block |
| Render.SuggestionRow | main.go:127 | the link line reads as a tab followed by the joined texts |
| Render.Page | main.go:75-130 | the whole run for one page and option; `Render.PageFailsOnlyOnRange`, `Render.SuggestionsIgnoreRange` and `Render.EmptyWindowPage` give its meaning |
| Render.PageFailsOnlyOnRange | main.go:83-90 | a run fails exactly when the option does not parse, with the same error kind |
| Render.SuggestionsIgnoreRange | main.go:121-128 | the suggestion lines end the output, the same whatever the range |
| Render.EmptyWindowPage | main.go:91-128 | an empty window prints only the suggestion block, without error |
| Render.ListExample | main.go:30-38 | a three-item `ol` whose second item holds a `br` prints three lines. The second is `2. b`, then a newline, three spaces and `c` |
| Render.SecondItemText | main.go:33-37 | item 2 holding `b<br>c` prints as `2. b`, a newline, three spaces and `c` |
| Render.PlainExample | main.go:39-44 | `a<br>b<br>c` without a list prints one block `a\nb\nc` |
| Render.ExampleListItems | main.go:30 | `ol > li` finds the three items of that list, in order |
| Render.ThreeItems | main.go:30 | three `li` children of an `ol` are its three hits, in order |
| Render.ItemHit | main.go:30 | an `li` directly under an `ol` is one hit, with its next element sibling |

## Left out

- The HTTP request and the query escaping of the search word (main.go:69-73) are network I/O. The fetched page is an input of `Render.Page`.
- Command-line parsing with go-flags, and the help shown when no word is given (main.go:47-67), are not modelled. The `--range` value is a parameter; only its default (main.go:49) appears, as `Window.DefaultRange`.
- The colour escape sequences, the colorable writer, the buffering and the final `Flush` (main.go:17-27, 53, 130) are terminal plumbing. Colours are the opaque tokens `Grey`, `Red`, `Yellow` and `Blue`.
- A panic is modelled as a `Failure` carrying the error kind (`ErrSyntax` or `ErrRange`). The other fields of `strconv.NumError` and the panic trace are not modelled.
- goquery's in-place `ReplaceWithHtml` on `br` (main.go:34-36, 40-42) is modelled as rendering with a replacement string, which leaves the tree as it is. The program differs whenever a node is read again after a `displayContent` call has replaced a `br` inside it. That happens through a second `displayContent` call, when one item holds a nested list or two rendered selections overlap. It also happens through `Text()`. For example, when a word class is the element right after the previous word class (main.go:104-106), the first call replaces the second word class's `br`s in place. The second label then prints them as newlines: `B<br>C` prints `B`, a newline and `C`, where the model prints `BC`. Nested lists and word classes that follow one another directly are outside the model.
- `Find` on a selection of several nodes is modelled as the concatenation of each node's results. goquery also removes duplicates, which only matters when the nodes of a selection are nested in one another.
- HTML parsing and the general CSS selector engine are not modelled. This includes case-insensitive tag names and comment or doctype nodes. Only the selectors main.go uses are modelled: class, id, tag, and `parent > child`.
- `Numerals.Atoi` assumes a 64-bit `int`, the bound `strconv.Atoi` uses on 64-bit platforms. It omits the `0x`/`_` forms, which Atoi's base-10 mode rejects anyway.
- Text is a sequence of Unicode characters, not UTF-8 bytes. The `len(idx + ". ")` of main.go:35 counts bytes, but the label is ASCII, so the two agree.
- Html.FindIn: its contract states only that every hit passes the element half of the selector and carries at most one next sibling. For `p > c` it does not state that the hit's parent is a `p`; that half is stated only for the list selectors, by `Html.ChildrenOfFound` and `Render.NoListsNoItems`. That every matching descendant is found, in document order, follows from its definition but is not stated as a separate lemma.

=== FILE: attr.dfy ===
/**
 * The clean-up applied to the text of every `.attr` node before it is
 * printed (main.go:80-81, 97-98): level markers are deleted, then kana
 * markers are relabelled.
 */
module AttrText {
  import opened Numerals
  import opened Regex

  const KanaLabel: string := "【カナ】"

  /** `rxlvl.ReplaceAllString(text, "")`. */
  function StripLevel(s: string): string {
    ReplaceAll(LevelRx, Literal(""), s)
  }

  /** `rxkana.ReplaceAllString(text, "【カナ】")`. */
  function RelabelKana(s: string): string {
    ReplaceAll(KanaRx, Literal(KanaLabel), s)
  }

  /** The printed form of an attribute's text. */
  function RewriteAttr(s: string): string {
    RelabelKana(StripLevel(s))
  }

  /** `【レベル】<digits>、`. */
  function LevelMarker(digits: string): string
    requires IsNumeral(digits)
  {
    LevelOpen + digits + [LevelClose]
  }

  lemma LevelMarkerMatches(digits: string, rest: string)
    requires IsNumeral(digits)
    ensures MatchLen(LevelRx, LevelMarker(digits) + rest) == |LevelMarker(digits)|
  {
    var s := LevelMarker(digits) + rest;
    var o := |LevelOpen|;
    assert s[..o] == LevelOpen;
    assert s[o..] == digits + ([LevelClose] + rest);
    DigitRunAll(digits);
    DigitRunAppend(digits, [LevelClose] + rest);
    assert s[o + |digits|] == LevelClose;
  }

  /** Each level marker is deleted and nothing around it changes. */
  lemma StripLevelDeletesMarker(a: string, digits: string, b: string)
    requires IsNumeral(digits)
    ensures StripLevel(a + LevelMarker(digits) + b) == StripLevel(a) + StripLevel(b)
  {
    var m := LevelMarker(digits);
    var c := m + b;
    assert a + m + b == a + c;
    assert c[0] == LevelOpen[0] == '【';
    ReplaceAllSplit(LevelRx, Literal(""), a, c);
    LevelMarkerMatches(digits, b);
    ReplaceAllAtMatch(LevelRx, Literal(""), m, b);
    assert StripLevel(c) == "" + StripLevel(b);
  }

  /** Text that holds no level marker anywhere is printed as it is. */
  lemma StripLevelUnmarked(s: string)
    requires forall i, j :: 0 <= i < j <= |s| ==> !InLanguage(LevelRx, s[i..j])
    ensures StripLevel(s) == s
  {
    MatchFreeFromLanguage(LevelRx, s);
    ReplaceAllMatchFree(LevelRx, Literal(""), s);
  }

  /** Each kana marker becomes the kana label and nothing around it changes. */
  lemma RelabelKanaReplacesMarker(a: string, b: string)
    ensures RelabelKana(a + KanaMark + b) == RelabelKana(a) + KanaLabel + RelabelKana(b)
  {
    var c := KanaMark + b;
    assert a + KanaMark + b == a + c;
    assert c[0] == '【';
    ReplaceAllSplit(KanaRx, Literal(KanaLabel), a, c);
    assert c[..|KanaMark|] == KanaMark;
    ReplaceAllAtMatch(KanaRx, Literal(KanaLabel), KanaMark, b);
  }

  /** Text without a kana marker is left as it is. */
  lemma RelabelKanaUnmarked(s: string)
    requires forall i, j :: 0 <= i < j <= |s| ==> s[i..j] != KanaMark
    ensures RelabelKana(s) == s
  {
    MatchFreeFromLanguage(KanaRx, s);
    ReplaceAllMatchFree(KanaRx, Literal(KanaLabel), s);
  }

  /** `【レベル】3、foo` is printed as `foo`. */
  lemma LevelExample()
    ensures RewriteAttr("【レベル】3、foo") == "foo"
  {
    assert "【レベル】3、foo" == [] + LevelMarker("3") + "foo";
    StripLevelDeletesMarker([], "3", "foo");
    assert StripLevel([]) == [];
    StripLevelUnmarkedShort("foo");
    assert StripLevel("【レベル】3、foo") == "foo";
    RelabelKanaUnmarkedShort("foo");
  }

  /** `【＠】` is printed as `【カナ】`. */
  lemma KanaExample()
    ensures RewriteAttr("【＠】") == "【カナ】"
  {
    assert "【＠】" == [] + KanaMark + [];
    StripLevelUnmarkedShort("【＠】");
    RelabelKanaReplacesMarker([], []);
    assert RelabelKana([]) == [];
  }

  /**
   * The deletion is a single pass: removing the inner marker of
   * `【レベル】【レベル】1、1、` leaves a new marker behind, which stays.
   */
  lemma SinglePassExample()
    ensures StripLevel("【レベル】【レベル】1、1、") == "【レベル】1、"
  {
    assert "【レベル】【レベル】1、1、" == LevelOpen + LevelMarker("1") + "1、";
    StripLevelDeletesMarker(LevelOpen, "1", "1、");
    StripLevelUnmarkedShort(LevelOpen);
    StripLevelUnmarkedShort("1、");
    assert LevelOpen + "1、" == "【レベル】1、";
  }

  /** Texts shorter than a level marker (or without its opening) hold none. */
  lemma StripLevelUnmarkedShort(s: string)
    requires |s| <= |LevelOpen| || forall i :: 0 <= i < |s| ==> s[i] != '【'
    ensures StripLevel(s) == s
  {
    forall i | 0 <= i < |s|
      ensures MatchLen(LevelRx, s[i..]) == 0
    {
      assert |s[i..]| > |LevelOpen| ==> s[i..][0] != LevelOpen[0];
      assert |s[i..]| > |LevelOpen| ==> s[i..][..|LevelOpen|][0] == s[i..][0];
    }
    ReplaceAllMatchFree(LevelRx, Literal(""), s);
  }

  lemma RelabelKanaUnmarkedShort(s: string)
    requires forall i :: 0 <= i < |s| ==> s[i] != '【'
    ensures RelabelKana(s) == s
  {
    forall i | 0 <= i < |s|
      ensures MatchLen(KanaRx, s[i..]) == 0
    {
      assert |s[i..]| >= |KanaMark| ==> s[i..][..|KanaMark|][0] == s[i..][0];
    }
    ReplaceAllMatchFree(KanaRx, Literal(KanaLabel), s);
  }
}

=== FILE: html.dfy ===
/**
 * An abstract HTML tree standing in for goquery selections, with the few
 * queries main.go makes on it: `Find` with a fixed selector, `Next`,
 * `Text`, the `br` replacement of `displayContent`, and the removal of
 * noise nodes.
 */
module Html {
  import opened Strings
  import opened Seqs

  /** A text node, or an element with its tag, `id`, classes and children (`br` is an element). */
  datatype Node =
    | TextNode(data: string)
    | Element(tag: string, id: string, classes: set<string>, children: seq<Node>)

  /** The selector shapes main.go uses. */
  datatype Selector =
    | ByClass(names: set<string>)                 // `.a, .b`
    | ById(name: string)                          // `#name`
    | ByTag(tags: set<string>)                    // `ul, ol`
    | ChildOf(parents: set<string>, tag: string)  // `ol > li, ul > li`

  const Breaks: Selector := ByTag({"br"})
  const Noise: Selector := ByClass({"ex_sentence", "kana"})

  /** What the selector asks of the element itself. */
  predicate Selects(sel: Selector, n: Node) {
    n.Element? &&
    match sel
    case ByClass(names) => n.classes * names != {}
    case ById(name) => n.id == name
    case ByTag(tags) => n.tag in tags
    case ChildOf(_, tag) => n.tag == tag
  }

  /** The selector matches `n` whose parent has tag `parentTag`. */
  predicate Matches(sel: Selector, n: Node, parentTag: string) {
    Selects(sel, n) && (sel.ChildOf? ==> parentTag in sel.parents)
  }

  /** A node `Find` returned, with what `Next()` gives for it. */
  datatype Hit = Hit(node: Node, next: seq<Node>)

  /** `Next()`: the first element among the following siblings, skipping text nodes. */
  function NextElement(siblings: seq<Node>): (r: seq<Node>)
    ensures |r| <= 1
    ensures r != [] ==> r[0].Element? && r[0] in siblings
    ensures r != [] ==> exists j :: 0 <= j < |siblings| && siblings[j] == r[0] && forall i :: 0 <= i < j ==> !siblings[i].Element?
    ensures r == [] <==> forall i :: 0 <= i < |siblings| ==> !siblings[i].Element?
    decreases |siblings|
  {
    if siblings == [] then []
    else if siblings[0].Element? then [siblings[0]]
    else NextElement(siblings[1..])
  }

  /**
   * The matches among the forest `cs` (children of a `parentTag` element)
   * and all their descendants, in document order.
   */
  function FindIn(sel: Selector, cs: seq<Node>, parentTag: string): (hits: seq<Hit>)
    ensures forall i :: 0 <= i < |hits| ==> Selects(sel, hits[i].node) && |hits[i].next| <= 1
    decreases cs
  {
    if cs == [] then []
    else
      var c := cs[0];
      (if Matches(sel, c, parentTag) then [Hit(c, NextElement(cs[1..]))] else [])
      + (if c.Element? then FindIn(sel, c.children, c.tag) else [])
      + FindIn(sel, cs[1..], parentTag)
  }

  /** `FindIn` on a forest whose first tree is `c`: its own hit, then its descendants', then the rest's. */
  lemma FindInCons(sel: Selector, c: Node, rest: seq<Node>, parentTag: string)
    ensures FindIn(sel, [c] + rest, parentTag) ==
      (if Matches(sel, c, parentTag) then [Hit(c, NextElement(rest))] else [])
      + (if c.Element? then FindIn(sel, c.children, c.tag) else [])
      + FindIn(sel, rest, parentTag)
  {
    assert ([c] + rest)[0] == c && ([c] + rest)[1..] == rest;
  }

  /** `Find` on one node: its descendants, not the node itself. */
  function Find(sel: Selector, n: Node): seq<Hit> {
    if n.Element? then FindIn(sel, n.children, n.tag) else []
  }

  /** `Find` on a selection: the matches under each of its nodes in turn. */
  function FindAll(sel: Selector, nodes: seq<Node>): seq<Hit>
    decreases |nodes|
  {
    if nodes == [] then [] else Find(sel, nodes[0]) + FindAll(sel, nodes[1..])
  }

  lemma FindAllSingle(sel: Selector, n: Node)
    ensures FindAll(sel, [n]) == Find(sel, n)
  {
    assert [n][1..] == [];
    assert FindAll(sel, [n]) == Find(sel, n) + FindAll(sel, []);
  }

  /** The nodes of a selection, as `Find` returned them. */
  function Nodes(hits: seq<Hit>): seq<Node>
    decreases |hits|
  {
    if hits == [] then [] else [hits[0].node] + Nodes(hits[1..])
  }

  /** `Find` on a selection distributes over splitting the selection. */
  lemma {:induction false} FindAllAppend(sel: Selector, a: seq<Node>, b: seq<Node>)
    ensures FindAll(sel, a + b) == FindAll(sel, a) + FindAll(sel, b)
    decreases |a|
  {
    if a == [] {
      EmptyPrefix(b);
      EmptyPrefix(FindAll(sel, b));
    } else {
      var t := a[1..];
      HeadTail(a, b);
      FindAllAppend(sel, t, b);
      assert (a + b)[0] == a[0] && (a + b)[1..] == t + b;
      assert FindAll(sel, a + b) == Find(sel, a[0]) + (FindAll(sel, t) + FindAll(sel, b));
      Assoc(Find(sel, a[0]), FindAll(sel, t), FindAll(sel, b));
    }
  }

  /** The nodes of two selections are the nodes of each in turn. */
  lemma {:induction false} NodesAppend(a: seq<Hit>, b: seq<Hit>)
    ensures Nodes(a + b) == Nodes(a) + Nodes(b)
    decreases |a|
  {
    if a == [] {
      EmptyPrefix(b);
      EmptyPrefix(Nodes(b));
    } else {
      var t := a[1..];
      HeadTail(a, b);
      NodesAppend(t, b);
      assert (a + b)[0] == a[0] && (a + b)[1..] == t + b;
      assert Nodes(a + b) == [a[0].node] + (Nodes(t) + Nodes(b));
      Assoc([a[0].node], Nodes(t), Nodes(b));
    }
  }

  /** `Find` on the nodes of two selections is `Find` on each in turn. */
  lemma FindAllNodesAppend(sel: Selector, a: seq<Hit>, b: seq<Hit>)
    ensures FindAll(sel, Nodes(a + b)) == FindAll(sel, Nodes(a)) + FindAll(sel, Nodes(b))
  {
    NodesAppend(a, b);
    FindAllAppend(sel, Nodes(a), Nodes(b));
  }

  /** No node among `hits` holds another match of `sel`. */
  predicate Unnested(sel: Selector, hits: seq<Hit>)
    decreases |hits|
  {
    hits == [] || (Find(sel, hits[0].node) == [] && Unnested(sel, hits[1..]))
  }

  /** Two selections are unnested together exactly when each is. */
  lemma {:induction false} UnnestedAppend(sel: Selector, a: seq<Hit>, b: seq<Hit>)
    ensures Unnested(sel, a + b) <==> Unnested(sel, a) && Unnested(sel, b)
    decreases |a|
  {
    if a == [] {
      EmptyPrefix(b);
    } else {
      HeadTail(a, b);
      UnnestedAppend(sel, a[1..], b);
      assert (a + b)[0] == a[0] && (a + b)[1..] == a[1..] + b;
    }
  }

  /**
   * Finding the elements with a tag in `tags`, then the `child` elements
   * directly under them, gives the `tags > child` matches, when the forest
   * does not sit under such an element and none of those elements holds
   * another.
   */
  lemma {:induction false} ChildrenOfFound(tags: set<string>, child: string, cs: seq<Node>, parentTag: string)
    requires parentTag !in tags
    requires Unnested(ByTag(tags), FindIn(ByTag(tags), cs, parentTag))
    ensures FindAll(ChildOf(tags, child), Nodes(FindIn(ByTag(tags), cs, parentTag)))
      == FindIn(ChildOf(tags, child), cs, parentTag)
    decreases cs
  {
    if cs == [] {
      assert Nodes([]) == [];
    } else {
      UnnestedParts(ByTag(tags), cs, parentTag);
      ChildrenOfFound(tags, child, cs[1..], parentTag);
      if cs[0].Element? && cs[0].tag !in tags {
        ChildrenOfFound(tags, child, cs[0].children, cs[0].tag);
      }
      ChildrenOfFoundStep(tags, child, cs, parentTag);
    }
  }

  /** The matches below the first tree, and those in the other trees, are among the matches of the forest. */
  lemma UnnestedParts(sel: Selector, cs: seq<Node>, parentTag: string)
    requires cs != [] && Unnested(sel, FindIn(sel, cs, parentTag))
    ensures Unnested(sel, FindIn(sel, cs[1..], parentTag))
    ensures cs[0].Element? ==> Unnested(sel, FindIn(sel, cs[0].children, cs[0].tag))
    ensures Matches(sel, cs[0], parentTag) ==> Find(sel, cs[0]) == []
  {
    var c, rest := cs[0], cs[1..];
    var own := if Matches(sel, c, parentTag) then [Hit(c, NextElement(rest))] else [];
    var inner := if c.Element? then FindIn(sel, c.children, c.tag) else [];
    assert cs == [c] + rest;
    FindInCons(sel, c, rest, parentTag);
    UnnestedAppend(sel, own + inner, FindIn(sel, rest, parentTag));
    UnnestedAppend(sel, own, inner);
  }

  /** One step of `ChildrenOfFound`: the first tree, then the rest, from what holds for each. */
  lemma ChildrenOfFoundStep(tags: set<string>, child: string, cs: seq<Node>, parentTag: string)
    requires cs != [] && parentTag !in tags
    requires cs[0].Element? && cs[0].tag in tags ==> Find(ByTag(tags), cs[0]) == []
    requires FindAll(ChildOf(tags, child), Nodes(FindIn(ByTag(tags), cs[1..], parentTag)))
      == FindIn(ChildOf(tags, child), cs[1..], parentTag)
    requires cs[0].Element? && cs[0].tag !in tags ==>
      FindAll(ChildOf(tags, child), Nodes(FindIn(ByTag(tags), cs[0].children, cs[0].tag)))
      == FindIn(ChildOf(tags, child), cs[0].children, cs[0].tag)
    ensures FindAll(ChildOf(tags, child), Nodes(FindIn(ByTag(tags), cs, parentTag)))
      == FindIn(ChildOf(tags, child), cs, parentTag)
  {
    var parentSel, childSel := ByTag(tags), ChildOf(tags, child);
    var c, rest := cs[0], cs[1..];
    var own := if Matches(parentSel, c, parentTag) then [Hit(c, NextElement(rest))] else [];
    var inner := if c.Element? then FindIn(parentSel, c.children, c.tag) else [];
    var later := FindIn(parentSel, rest, parentTag);
    var sub := if c.Element? then FindIn(childSel, c.children, c.tag) else [];
    assert cs == [c] + rest;
    FindInCons(parentSel, c, rest, parentTag);
    FindInCons(childSel, c, rest, parentTag);
    FindAllNodesAppend(childSel, own + inner, later);
    if c.Element? && c.tag in tags {
      OneFoundHoldsChildren(tags, child, c, rest);
    } else if c.Element? {
      assert own + inner == inner;
    } else {
      assert Nodes(own + inner) == [];
    }
    assert FindAll(childSel, Nodes(own + inner)) == sub;
    assert FindAll(childSel, Nodes(own + inner + later)) == sub + FindIn(childSel, rest, parentTag);
    assert FindIn(parentSel, cs, parentTag) == own + inner + later;
    assert FindIn(childSel, cs, parentTag) == [] + sub + FindIn(childSel, rest, parentTag);
    EmptyPrefix(sub);
    assert FindAll(childSel, Nodes(FindIn(parentSel, cs, parentTag))) == FindIn(childSel, cs, parentTag);
  }

  /** An element found by its tag that holds no other such element contributes exactly its own children. */
  lemma OneFoundHoldsChildren(tags: set<string>, child: string, c: Node, rest: seq<Node>)
    requires c.Element? && c.tag in tags
    requires Find(ByTag(tags), c) == []
    ensures FindAll(ChildOf(tags, child), Nodes([Hit(c, NextElement(rest))] + FindIn(ByTag(tags), c.children, c.tag)))
      == FindIn(ChildOf(tags, child), c.children, c.tag)
  {
    var own := [Hit(c, NextElement(rest))];
    assert own + FindIn(ByTag(tags), c.children, c.tag) == own;
    assert Nodes(own) == [c];
    FindAllSingle(ChildOf(tags, child), c);
  }

  // ---------------------------------------------------------------- text

  /** `Text()` of a forest: the contents of every text node in it, in order. */
  function TextIn(cs: seq<Node>): string
    decreases cs
  {
    if cs == [] then []
    else (if cs[0].TextNode? then cs[0].data else TextIn(cs[0].children)) + TextIn(cs[1..])
  }

  function TextOf(n: Node): string {
    TextIn([n])
  }

  /**
   * The text of a forest after every `br` element in it has been replaced
   * by the text `br` (`ReplaceWithHtml` on each `Find("br")` match).
   */
  function RenderIn(cs: seq<Node>, br: string): string
    decreases cs
  {
    if cs == [] then []
    else
      var c := cs[0];
      (if c.TextNode? then c.data else if c.tag == "br" then br else RenderIn(c.children, br))
      + RenderIn(cs[1..], br)
  }

  /** The replacement reaches the node's descendants; the node itself is kept. */
  function RenderOf(n: Node, br: string): string {
    if n.TextNode? then n.data else RenderIn(n.children, br)
  }

  function RenderSelection(nodes: seq<Node>, br: string): string
    decreases |nodes|
  {
    if nodes == [] then [] else RenderOf(nodes[0], br) + RenderSelection(nodes[1..], br)
  }

  /**
   * The runs of text of a forest between its line breaks: one more run than
   * there are `br` elements.
   */
  function SegmentsIn(cs: seq<Node>): (r: seq<string>)
    ensures |r| > 0
    decreases cs
  {
    if cs == [] then [[]]
    else
      var c := cs[0];
      var first := if c.TextNode? then [c.data] else if c.tag == "br" then [[], []] else SegmentsIn(c.children);
      Merge(first, SegmentsIn(cs[1..]))
  }

  function SegmentsOf(n: Node): (r: seq<string>)
    ensures |r| > 0
  {
    if n.TextNode? then [n.data] else SegmentsIn(n.children)
  }

  function SegmentsOfSelection(nodes: seq<Node>): (r: seq<string>)
    ensures |r| > 0
    decreases |nodes|
  {
    if nodes == [] then [[]] else Merge(SegmentsOf(nodes[0]), SegmentsOfSelection(nodes[1..]))
  }

  /** Every `br` is empty, as the HTML parser builds them (a void element). */
  predicate VoidBreaks(cs: seq<Node>)
    decreases cs
  {
    cs == [] ||
    ((cs[0].Element? ==> (if cs[0].tag == "br" then cs[0].children == [] else VoidBreaks(cs[0].children)))
     && VoidBreaks(cs[1..]))
  }

  /** Replacing breaks by `br` puts `br` between the runs of text. */
  lemma {:induction false} RenderIsJoin(cs: seq<Node>, br: string)
    ensures RenderIn(cs, br) == Join(SegmentsIn(cs), br)
    decreases cs
  {
    if cs != [] {
      var c := cs[0];
      var first := if c.TextNode? then [c.data] else if c.tag == "br" then [[], []] else SegmentsIn(c.children);
      RenderIsJoin(cs[1..], br);
      if c.Element? && c.tag != "br" {
        RenderIsJoin(c.children, br);
      }
      JoinMerge(first, SegmentsIn(cs[1..]), br);
    }
  }

  lemma RenderOfIsJoin(n: Node, br: string)
    ensures RenderOf(n, br) == Join(SegmentsOf(n), br)
  {
    if n.Element? {
      RenderIsJoin(n.children, br);
    }
  }

  lemma {:induction false} RenderSelectionIsJoin(nodes: seq<Node>, br: string)
    ensures RenderSelection(nodes, br) == Join(SegmentsOfSelection(nodes), br)
    decreases |nodes|
  {
    if nodes != [] {
      RenderOfIsJoin(nodes[0], br);
      RenderSelectionIsJoin(nodes[1..], br);
      JoinMerge(SegmentsOf(nodes[0]), SegmentsOfSelection(nodes[1..]), br);
    }
  }

  /** With empty breaks, `Text()` is the runs of text with nothing between them. */
  lemma {:induction false} TextIsJoin(cs: seq<Node>)
    requires VoidBreaks(cs)
    ensures TextIn(cs) == Join(SegmentsIn(cs), [])
    decreases cs
  {
    RenderIsJoin(cs, []);
    TextIsRenderWithoutBreaks(cs);
  }

  lemma {:induction false} TextIsRenderWithoutBreaks(cs: seq<Node>)
    requires VoidBreaks(cs)
    ensures TextIn(cs) == RenderIn(cs, [])
    decreases cs
  {
    if cs != [] {
      if cs[0].Element? && cs[0].tag != "br" {
        TextIsRenderWithoutBreaks(cs[0].children);
      }
      TextIsRenderWithoutBreaks(cs[1..]);
    }
  }

  /** Each `br` that `Find("br")` reports separates two runs of text. */
  lemma {:induction false} SegmentsPerBreak(cs: seq<Node>, parentTag: string)
    requires VoidBreaks(cs)
    ensures |SegmentsIn(cs)| == |FindIn(Breaks, cs, parentTag)| + 1
    decreases cs
  {
    if cs != [] {
      var c := cs[0];
      SegmentsPerBreak(cs[1..], parentTag);
      if c.Element? {
        if c.tag == "br" {
          assert FindIn(Breaks, c.children, c.tag) == [];
        } else {
          SegmentsPerBreak(c.children, c.tag);
        }
      }
    }
  }

  lemma SegmentsOfPerBreak(n: Node)
    requires n.Element? ==> VoidBreaks(n.children)
    ensures |SegmentsOf(n)| == |Find(Breaks, n)| + 1
  {
    if n.Element? {
      SegmentsPerBreak(n.children, n.tag);
    }
  }

  // ---------------------------------------------------------------- noise

  predicate IsNoise(n: Node) {
    Selects(Noise, n)
  }

  /** The forest with every `.ex_sentence` and `.kana` element removed, wherever it is. */
  function PruneIn(cs: seq<Node>): seq<Node>
    decreases cs
  {
    if cs == [] then []
    else
      var c := cs[0];
      (if IsNoise(c) then []
       else if c.TextNode? then [c]
       else [c.(children := PruneIn(c.children))])
      + PruneIn(cs[1..])
  }

  /** `doc.Find(".ex_sentence, .kana").Each(Remove)`: the root itself stays. */
  function Prune(n: Node): Node {
    if n.TextNode? then n else n.(children := PruneIn(n.children))
  }

  /**
   * Each tree is pruned on its own: the pruned forest is the pruned trees side
   * by side, so a noise node takes only itself with it, never a sibling.
   */
  lemma {:induction false} PruneInAppend(a: seq<Node>, b: seq<Node>)
    ensures PruneIn(a + b) == PruneIn(a) + PruneIn(b)
    decreases |a|
  {
    if a == [] {
      EmptyPrefix(b);
      EmptyPrefix(PruneIn(b));
    } else {
      var c, t := a[0], a[1..];
      var kept := if IsNoise(c) then [] else if c.TextNode? then [c] else [c.(children := PruneIn(c.children))];
      HeadTail(a, b);
      PruneInAppend(t, b);
      assert (a + b)[0] == c && (a + b)[1..] == t + b;
      assert PruneIn(a + b) == kept + (PruneIn(t) + PruneIn(b));
      Assoc(kept, PruneIn(t), PruneIn(b));
    }
  }

  /** After pruning no noise node is left. */
  lemma {:induction false} PruneRemovesNoise(cs: seq<Node>, parentTag: string)
    ensures FindIn(Noise, PruneIn(cs), parentTag) == []
    decreases cs
  {
    if cs != [] {
      var c := cs[0];
      PruneRemovesNoise(cs[1..], parentTag);
      var rest := PruneIn(cs[1..]);
      if !IsNoise(c) {
        if c.TextNode? {
          assert PruneIn(cs) == [c] + rest;
          assert ([c] + rest)[1..] == rest;
        } else {
          var c' := c.(children := PruneIn(c.children));
          PruneRemovesNoise(c.children, c.tag);
          assert PruneIn(cs) == [c'] + rest;
          assert ([c'] + rest)[1..] == rest;
        }
      } else {
        assert PruneIn(cs) == rest;
      }
    }
  }

  /** A forest without noise is left as it is. */
  lemma {:induction false} PruneKeepsClean(cs: seq<Node>, parentTag: string)
    requires FindIn(Noise, cs, parentTag) == []
    ensures PruneIn(cs) == cs
    decreases cs
  {
    if cs != [] {
      var c := cs[0];
      assert FindIn(Noise, cs[1..], parentTag) == [];
      PruneKeepsClean(cs[1..], parentTag);
      if c.Element? {
        assert FindIn(Noise, c.children, c.tag) == [];
        PruneKeepsClean(c.children, c.tag);
        assert c.(children := c.children) == c;
      }
      assert [c] + cs[1..] == cs;
    }
  }

  /** Pruning twice prunes nothing more. */
  lemma PruneIdempotent(n: Node)
    ensures Prune(Prune(n)) == Prune(n)
  {
    if n.Element? {
      PruneRemovesNoise(n.children, n.tag);
      PruneKeepsClean(PruneIn(n.children), n.tag);
    }
  }
}

=== FILE: numerals.dfy ===
/**
 * Decimal numerals as Go's `strconv` reads and writes them on a 64-bit
 * platform: `Itoa` for the 1-based list labels and `Atoi` for the two
 * bounds of the range option.
 */
module Numerals {
  import opened Wrappers

  /** Bounds of Go's `int` (64-bit) and of `uint64`. */
  const MinInt: int := -0x8000_0000_0000_0000
  const MaxInt: int := 0x7fff_ffff_ffff_ffff
  const MaxUint64: int := 0xffff_ffff_ffff_ffff

  /** The two error kinds of `strconv.NumError`. */
  datatype NumError = ErrSyntax | ErrRange

  /** An ASCII digit: what both `\d` in Go's regexp and `strconv` accept. */
  predicate IsDigit(c: char) {
    '0' <= c <= '9'
  }

  predicate AllDigits(s: string) {
    forall i :: 0 <= i < |s| ==> IsDigit(s[i])
  }

  /** A non-empty run of digits, the text `\d+` matches. */
  predicate IsNumeral(s: string) {
    |s| > 0 && AllDigits(s)
  }

  function DigitValue(c: char): nat
    requires IsDigit(c)
  {
    c as int - '0' as int
  }

  function DigitChar(d: nat): (c: char)
    requires d < 10
    ensures IsDigit(c) && DigitValue(c) == d
  {
    ('0' as int + d) as char
  }

  /** The value of the digits `s` read left to right after the digits of `acc`. */
  function Accumulate(acc: nat, s: string): nat
    requires AllDigits(s)
    decreases |s|
  {
    if s == [] then acc else Accumulate(acc * 10 + DigitValue(s[0]), s[1..])
  }

  /** The value a string of decimal digits denotes. */
  function Value(s: string): nat
    requires AllDigits(s)
  {
    Accumulate(0, s)
  }

  /** `strconv.Itoa` on the non-negative values the renderer formats. */
  function Itoa(n: nat): (s: string)
    ensures IsNumeral(s)
    ensures |s| > 1 ==> s[0] != '0'
    decreases n
  {
    if n < 10 then [DigitChar(n)] else Itoa(n / 10) + [DigitChar(n % 10)]
  }

  /** Optional sign followed by a numeral: the only shape `Atoi` accepts. */
  predicate IsIntLiteral(s: string) {
    |s| > 0 && (if s[0] == '+' || s[0] == '-' then IsNumeral(s[1..]) else IsNumeral(s))
  }

  function LiteralValue(s: string): int
    requires IsIntLiteral(s)
  {
    if s[0] == '-' then -(Value(s[1..]) as int)
    else if s[0] == '+' then Value(s[1..])
    else Value(s)
  }

  /**
   * The digit loop of `strconv.ParseUint(s, 10, 64)`: a non-digit is a syntax
   * error, and the first digit that takes the value past 2^64-1 a range error.
   */
  function ParseDigits(acc: nat, s: string): (r: Result<nat, NumError>)
    requires acc <= MaxUint64
    ensures r.Success? ==> r.value <= MaxUint64
    decreases |s|
  {
    if s == [] then Success(acc)
    else if !IsDigit(s[0]) then Failure(ErrSyntax)
    else
      var n := acc * 10 + DigitValue(s[0]);
      if n > MaxUint64 then Failure(ErrRange) else ParseDigits(n, s[1..])
  }

  /** `strconv.ParseUint(s, 10, 64)`: the empty string is a syntax error. */
  function ParseUint(s: string): Result<nat, NumError> {
    if s == [] then Failure(ErrSyntax) else ParseDigits(0, s)
  }

  /**
   * `strconv.Atoi`: an optional sign, then `ParseUint`, then the check that
   * the signed value fits in a 64-bit `int`.
   */
  function Atoi(s: string): (r: Result<int, NumError>)
    ensures r.Success? <==> IsIntLiteral(s) && MinInt <= LiteralValue(s) <= MaxInt
    ensures r.Success? ==> r.value == LiteralValue(s)
  {
    if s == [] then Failure(ErrSyntax)
    else
      var neg := s[0] == '-';
      var digits := if s[0] == '-' || s[0] == '+' then s[1..] else s;
      ParseDigitsMeaning(0, digits);
      match ParseUint(digits)
      case Failure(e) => Failure(e)
      case Success(u) =>
        if !neg && u > MaxInt then Failure(ErrRange)
        else if neg && u > -MinInt then Failure(ErrRange)
        else
          var v: int := if neg then -(u as int) else u;
          Success(v)
  }

  lemma {:induction false} AccumulateAtLeast(acc: nat, s: string)
    requires AllDigits(s)
    ensures Accumulate(acc, s) >= acc
    decreases |s|
  {
    if s != [] {
      AccumulateAtLeast(acc * 10 + DigitValue(s[0]), s[1..]);
    }
  }

  /** The digit loop succeeds exactly on digit strings whose value fits in 64 bits. */
  lemma {:induction false} ParseDigitsMeaning(acc: nat, s: string)
    requires acc <= MaxUint64
    ensures ParseDigits(acc, s).Success? <==> AllDigits(s) && Accumulate(acc, s) <= MaxUint64
    ensures ParseDigits(acc, s).Success? ==> ParseDigits(acc, s).value == Accumulate(acc, s)
    ensures ParseDigits(acc, s).Failure? && AllDigits(s) ==> ParseDigits(acc, s).error == ErrRange
    decreases |s|
  {
    if s != [] && IsDigit(s[0]) {
      var n := acc * 10 + DigitValue(s[0]);
      if n > MaxUint64 {
        if AllDigits(s) {
          AccumulateAtLeast(n, s[1..]);
        }
      } else {
        ParseDigitsMeaning(n, s[1..]);
        assert AllDigits(s) <==> AllDigits(s[1..]) by {
          if AllDigits(s[1..]) {
            forall i | 0 <= i < |s| ensures IsDigit(s[i]) {
              if i > 0 { assert s[i] == s[1..][i - 1]; }
            }
          }
        }
      }
    }
  }

  lemma {:induction false} AccumulateSnoc(acc: nat, s: string, c: char)
    requires AllDigits(s) && IsDigit(c)
    ensures AllDigits(s + [c])
    ensures Accumulate(acc, s + [c]) == Accumulate(acc, s) * 10 + DigitValue(c)
    decreases |s|
  {
    if s == [] {
      assert s + [c] == [c];
    } else {
      assert (s + [c])[1..] == s[1..] + [c];
      AccumulateSnoc(acc * 10 + DigitValue(s[0]), s[1..], c);
    }
  }

  /** `Itoa` writes the numeral that denotes its argument. */
  lemma {:induction false} ValueOfItoa(n: nat)
    ensures Value(Itoa(n)) == n
    decreases n
  {
    if n < 10 {
      var s := [DigitChar(n)];
      assert Itoa(n) == s;
      assert s[1..] == [];
      assert Accumulate(0, s) == Accumulate(n, []);
    } else {
      ValueOfItoa(n / 10);
      AccumulateSnoc(0, Itoa(n / 10), DigitChar(n % 10));
    }
  }

  /** Reading back what `Itoa` wrote gives the number again. */
  lemma AtoiItoa(n: nat)
    requires n <= MaxInt
    ensures Atoi(Itoa(n)) == Success(n)
  {
    ValueOfItoa(n);
    var s := Itoa(n);
    assert IsDigit(s[0]);
  }

  /** A numeral is read as its value when that value fits in an `int`. */
  lemma AtoiNumeral(s: string)
    requires IsNumeral(s)
    ensures Atoi(s) == if Value(s) <= MaxInt then Success(Value(s)) else Failure(ErrRange)
  {
    assert IsDigit(s[0]);
    ParseDigitsMeaning(0, s);
  }

  /** The width of a label: one digit below ten, two below a hundred. */
  lemma ItoaWidth(n: nat)
    ensures n < 10 ==> |Itoa(n)| == 1
    ensures 10 <= n < 100 ==> |Itoa(n)| == 2
  {
  }
}

=== FILE: regex.dfy ===
/**
 * The three regular expressions main.go compiles, and `ReplaceAllString`
 * over them. Each pattern is given twice: as the language of texts it
 * matches (`InLanguage`) and as the scanner `MatchLen` that finds the match
 * anchored at a position; `LongestMatch` connects the two.
 */
module Regex {
  import opened Numerals
  import opened Seqs

  datatype Pattern =
    | RangeRx   // `(\d+):(\d+)`
    | LevelRx   // `【レベル】\d+、`
    | KanaRx    // `【＠】`

  /** A replacement template: literal text, or the `$i` expansion of capture group `i`. */
  datatype Template = Literal(text: string) | Group(index: nat)

  const LevelOpen: string := "【レベル】"
  const LevelClose: char := '、'
  const KanaMark: string := "【＠】"

  /** The texts each pattern matches. */
  ghost predicate InLanguage(p: Pattern, t: string) {
    match p
    case RangeRx =>
      exists k :: 0 < k < |t| && t[k] == ':' && IsNumeral(t[..k]) && IsNumeral(t[k + 1..])
    case LevelRx =>
      |t| > |LevelOpen| && t[..|LevelOpen|] == LevelOpen && t[|t| - 1] == LevelClose
      && IsNumeral(t[|LevelOpen|..|t| - 1])
    case KanaRx =>
      t == KanaMark
  }

  /** Length of the longest prefix of `s` made of digits. */
  function DigitRun(s: string): (n: nat)
    ensures n <= |s|
    ensures AllDigits(s[..n])
    ensures n < |s| ==> !IsDigit(s[n])
    decreases |s|
  {
    if s == [] || !IsDigit(s[0]) then 0 else 1 + DigitRun(s[1..])
  }

  /**
   * Length of the match of `p` that starts at the beginning of `s`, or 0
   * when there is none (none of the patterns matches the empty text).
   * `\d+` is greedy and the text after each run of digits is fixed, so this
   * is the match Go's leftmost-first engine picks.
   */
  function MatchLen(p: Pattern, s: string): (n: nat)
    ensures n <= |s|
  {
    match p
    case RangeRx => RangeMatchLen(s)
    case LevelRx => LevelMatchLen(s)
    case KanaRx => if |s| >= |KanaMark| && s[..|KanaMark|] == KanaMark then |KanaMark| else 0
  }

  /** `(\d+):(\d+)`: a run of digits, a colon, and the whole next run of digits. */
  function RangeMatchLen(s: string): (n: nat)
    ensures n <= |s|
  {
    var k := DigitRun(s);
    if 0 < k < |s| && s[k] == ':' then
      var j := DigitRun(s[k + 1..]);
      if j > 0 then k + 1 + j else 0
    else 0
  }

  /** `【レベル】\d+、`: the opening label, a run of digits, and the closing comma. */
  function LevelMatchLen(s: string): (n: nat)
    ensures n <= |s|
  {
    if |s| > |LevelOpen| && s[..|LevelOpen|] == LevelOpen then
      var d := DigitRun(s[|LevelOpen|..]);
      if d > 0 && |LevelOpen| + d < |s| && s[|LevelOpen| + d] == LevelClose then |LevelOpen| + d + 1 else 0
    else 0
  }

  /** The text of capture group `i` of the match `m` (group 0 is the whole match; unknown groups expand to ""). */
  function Submatch(p: Pattern, m: string, i: nat): string {
    if i == 0 then m
    else if p.RangeRx? && (i == 1 || i == 2) then
      var k := DigitRun(m);
      if i == 1 then m[..k] else if k < |m| then m[k + 1..] else []
    else []
  }

  function Expand(p: Pattern, t: Template, m: string): string {
    match t
    case Literal(text) => text
    case Group(i) => Submatch(p, m, i)
  }

  /**
   * One step of `Regexp.ReplaceAllString`'s scan over a non-empty text: where
   * a match starts, its expansion and its length; otherwise the first
   * character, kept, and 1.
   */
  function Step(p: Pattern, t: Template, s: string): (r: (string, nat))
    requires s != []
    ensures 0 < r.1 <= |s|
  {
    var n := MatchLen(p, s);
    if n > 0 then (Expand(p, t, s[..n]), n) else ([s[0]], 1)
  }

  /** `Regexp.ReplaceAllString`: the steps of the scan, concatenated. */
  function ReplaceAll(p: Pattern, t: Template, s: string): string
    decreases |s|
  {
    if s == [] then []
    else
      var (piece, n) := Step(p, t, s);
      piece + ReplaceAll(p, t, s[n..])
  }

  /** No match of `p` starts anywhere in `s`. */
  predicate MatchFree(p: Pattern, s: string) {
    forall i :: 0 <= i < |s| ==> MatchLen(p, s[i..]) == 0
  }

  // ---------------------------------------------------------------- digit runs

  /** A digit prefix that stops at a non-digit is exactly the run. */
  lemma {:induction false} DigitRunExact(s: string, k: nat)
    requires k < |s| && AllDigits(s[..k]) && !IsDigit(s[k])
    ensures DigitRun(s) == k
  {
  }

  /** Any all-digit prefix is at most the run. */
  lemma {:induction false} DigitRunLongest(s: string, k: nat)
    requires k <= |s| && AllDigits(s[..k])
    ensures k <= DigitRun(s)
  {
  }

  /** A text of digits is one whole run. */
  lemma DigitRunAll(s: string)
    requires AllDigits(s)
    ensures DigitRun(s) == |s|
  {
    assert s[..|s|] == s;
    DigitRunLongest(s, |s|);
  }

  lemma {:induction false} DigitRunAppend(u: string, c: string)
    ensures DigitRun(u + c) == if DigitRun(u) < |u| then DigitRun(u) else |u| + DigitRun(c)
    decreases |u|
  {
    if u == [] {
      assert u + c == c;
    } else {
      assert (u + c)[0] == u[0];
      assert (u + c)[1..] == u[1..] + c;
      DigitRunAppend(u[1..], c);
    }
  }

  // ---------------------------------------------------------------- matching

  /**
   * The scanner finds the longest prefix of `s` in the pattern's language,
   * and reports 0 exactly when no prefix is in it.
   */
  lemma LongestMatch(p: Pattern, s: string)
    ensures MatchLen(p, s) > 0 ==> InLanguage(p, s[..MatchLen(p, s)])
    ensures forall m :: MatchLen(p, s) < m <= |s| ==> !InLanguage(p, s[..m])
  {
    match p
    case RangeRx => LongestRangeMatch(s);
    case LevelRx => LongestLevelMatch(s);
    case KanaRx =>
  }

  lemma RangeMatchSound(s: string)
    requires RangeMatchLen(s) > 0
    ensures InLanguage(RangeRx, s[..RangeMatchLen(s)])
  {
    var n := RangeMatchLen(s);
    var k := DigitRun(s);
    var t := s[..n];
    assert t[..k] == s[..k];
    assert t[k + 1..] == s[k + 1..][..DigitRun(s[k + 1..])];
    assert 0 < k < |t| && t[k] == ':' && IsNumeral(t[..k]) && IsNumeral(t[k + 1..]);
  }

  /** Any `N:M` prefix of `s` is no longer than the match `RangeMatchLen` finds. */
  lemma RangeWitnessBound(s: string, k: nat, m: nat)
    requires 0 < k < m <= |s| && s[k] == ':' && IsNumeral(s[..k]) && IsNumeral(s[k + 1..m])
    ensures m <= RangeMatchLen(s)
  {
    DigitRunExact(s, k);
    var rest := s[k + 1..];
    assert rest[..m - k - 1] == s[k + 1..m];
    DigitRunLongest(rest, m - k - 1);
  }

  lemma RangeMatchMaximal(s: string, m: nat)
    requires RangeMatchLen(s) < m <= |s|
    ensures !InLanguage(RangeRx, s[..m])
  {
    if InLanguage(RangeRx, s[..m]) {
      var t := s[..m];
      var k :| 0 < k < |t| && t[k] == ':' && IsNumeral(t[..k]) && IsNumeral(t[k + 1..]);
      assert s[..k] == t[..k] && s[k + 1..m] == t[k + 1..];
      RangeWitnessBound(s, k, m);
    }
  }

  lemma LongestRangeMatch(s: string)
    ensures RangeMatchLen(s) > 0 ==> InLanguage(RangeRx, s[..RangeMatchLen(s)])
    ensures forall m :: RangeMatchLen(s) < m <= |s| ==> !InLanguage(RangeRx, s[..m])
  {
    if RangeMatchLen(s) > 0 {
      RangeMatchSound(s);
    }
    forall m | RangeMatchLen(s) < m <= |s|
      ensures !InLanguage(RangeRx, s[..m])
    {
      RangeMatchMaximal(s, m);
    }
  }

  lemma LongestLevelMatch(s: string)
    ensures LevelMatchLen(s) > 0 ==> InLanguage(LevelRx, s[..LevelMatchLen(s)])
    ensures forall m :: LevelMatchLen(s) < m <= |s| ==> !InLanguage(LevelRx, s[..m])
  {
    var n := LevelMatchLen(s);
    var o := |LevelOpen|;
    if n > 0 {
      var t := s[..n];
      var d := DigitRun(s[o..]);
      assert t[..o] == s[..o];
      assert t[o..|t| - 1] == s[o..][..d];
      assert InLanguage(LevelRx, t);
    }
    forall m | n < m <= |s|
      ensures !InLanguage(LevelRx, s[..m])
    {
      if InLanguage(LevelRx, s[..m]) {
        var t := s[..m];
        assert s[..o] == t[..o];
        var rest := s[o..];
        assert rest[..m - o - 1] == t[o..|t| - 1];
        DigitRunExact(rest, m - o - 1);
        assert false;
      }
    }
  }

  // ---------------------------------------------------------------- replacing

  /** Text in which no match starts comes through unchanged. */
  lemma {:induction false} ReplaceAllMatchFree(p: Pattern, t: Template, s: string)
    requires MatchFree(p, s)
    ensures ReplaceAll(p, t, s) == s
    decreases |s|
  {
    if s != [] {
      assert MatchLen(p, s[0..]) == 0;
      assert s[0..] == s;
      forall i | 0 <= i < |s[1..]|
        ensures MatchLen(p, s[1..][i..]) == 0
      {
        assert s[1..][i..] == s[i + 1..];
      }
      ReplaceAllMatchFree(p, t, s[1..]);
    }
  }

  /** A match at the start is replaced and the scan resumes right after it. */
  lemma ReplaceAllAtMatch(p: Pattern, t: Template, m: string, rest: string)
    requires |m| > 0 && MatchLen(p, m + rest) == |m|
    ensures ReplaceAll(p, t, m + rest) == Expand(p, t, m) + ReplaceAll(p, t, rest)
  {
    assert (m + rest)[..|m|] == m;
    assert (m + rest)[|m|..] == rest;
  }

  /** A text that is one match from end to end is replaced by its expansion. */
  lemma ReplaceAllWhole(p: Pattern, t: Template, m: string)
    requires |m| > 0 && MatchLen(p, m) == |m|
    ensures ReplaceAll(p, t, m) == Expand(p, t, m)
  {
    assert m + [] == m;
    ReplaceAllAtMatch(p, t, m, []);
  }

  /** Appending text that starts with `【` does not change the first step over `a`. */
  lemma StepBeforeBracket(p: Pattern, t: Template, a: string, c: string)
    requires !p.RangeRx? && |a| > 0 && |c| > 0 && c[0] == '【'
    ensures Step(p, t, a + c) == Step(p, t, a)
  {
    BracketStopsMatch(p, a, c);
    var n := MatchLen(p, a);
    if n > 0 {
      assert (a + c)[..n] == a[..n];
    }
  }

  /**
   * Before a `【` the scan for a level or kana marker restarts: the scan of
   * `a + c` is the scan of `a` followed by the scan of `c`.
   */
  lemma {:induction false} ReplaceAllSplit(p: Pattern, t: Template, a: string, c: string)
    requires !p.RangeRx? && |c| > 0 && c[0] == '【'
    ensures ReplaceAll(p, t, a + c) == ReplaceAll(p, t, a) + ReplaceAll(p, t, c)
    decreases |a|
  {
    if a == [] {
      assert a + c == c;
    } else {
      StepBeforeBracket(p, t, a, c);
      var (piece, n) := Step(p, t, a);
      DropAppend(a, c, n);
      ReplaceAllSplit(p, t, a[n..], c);
    }
  }

  /**
   * `【` cannot continue a level or kana marker, so neither marker matches
   * across a boundary followed by `【`.
   */
  lemma BracketStopsMatch(p: Pattern, u: string, c: string)
    requires !p.RangeRx? && |u| > 0 && |c| > 0 && c[0] == '【'
    ensures MatchLen(p, u + c) == MatchLen(p, u)
  {
    var s := u + c;
    if p.KanaRx? {
      if |u| < |KanaMark| {
        if |s| >= |KanaMark| {
          assert s[..|KanaMark|][|u|] == c[0];
        }
      } else {
        assert s[..|KanaMark|] == u[..|KanaMark|];
      }
    } else {
      var o := |LevelOpen|;
      if |u| < o {
        if |s| > o {
          assert s[|u|] == '【';
          assert s[..o][|u|] == s[|u|];
        }
      } else {
        assert s[..o] == u[..o];
        if u[..o] == LevelOpen {
          assert s[o..] == u[o..] + c;
          DigitRunAppend(u[o..], c);
          var d := DigitRun(u[o..]);
          if d == |u| - o {
            assert DigitRun(c) == 0;
            assert s[o + d] == c[0];
          } else {
            assert s[o + d] == u[o + d];
          }
        }
      }
    }
  }

  /** A text in which no substring is in the language is match-free. */
  lemma MatchFreeFromLanguage(p: Pattern, s: string)
    requires forall i, j :: 0 <= i < j <= |s| ==> !InLanguage(p, s[i..j])
    ensures MatchFree(p, s)
  {
    forall i | 0 <= i < |s|
      ensures MatchLen(p, s[i..]) == 0
    {
      var n := MatchLen(p, s[i..]);
      LongestMatch(p, s[i..]);
      var prefix := s[i..i + n];
      assert s[i..][..n] == prefix;
    }
  }
}

=== FILE: render.dfy ===
/**
 * The renderer of main.go: `displayContent` (main.go:29-45) and the body of
 * `main` after the fetch (main.go:75-128), as a function from the parsed
 * page and the `--range` option to the lines written on standard output.
 */
module Render {
  import opened Wrappers
  import opened Numerals
  import opened Strings
  import opened Seqs
  import opened Html
  import opened AttrText
  import opened Window

  /** The colours main.go paints with; every painted piece ends with the reset code. */
  datatype Colour = Grey | Red | Yellow | Blue

  datatype Piece = Plain(text: string) | Painted(colour: Colour, text: string)

  /** What one `Fprintln` writes, without its final newline; the text may hold newlines of its own. */
  type Line = seq<Piece>

  /** A line's text without its colour codes. */
  function PlainText(line: Line): string
    decreases |line|
  {
    if line == [] then [] else line[0].text + PlainText(line[1..])
  }

  const ListItems: Selector := ChildOf({"ol", "ul"}, "li")
  const Lists: Selector := ByTag({"ul", "ol"})
  const Headwords: Selector := ByClass({"midashi", "midashi_je"})
  const Attributes: Selector := ByClass({"attr"})
  const WordClasses: Selector := ByClass({"wordclass"})
  const Results: Selector := ById("resultsList")
  const SuggestionBox: Selector := ById("sas_word")
  const SuggestionLinks: Selector := ChildOf({"span"}, "a")
  const SuggestionHeader: string := "Suggestion:"

  /** What a `br` inside list item `idx` becomes: a newline, then `len(idx + ". ")` spaces. */
  function ItemBreak(idx: string): string {
    "\n" + Spaces(|idx + ". "|)
  }

  function ItemLine(k: nat, item: Node): Line {
    var idx := Itoa(k);
    [Painted(Grey, idx + "."), Plain(" " + RenderOf(item, ItemBreak(idx)))]
  }

  /**
   * `displayContent`: one numbered line per `li` child of an `ol`/`ul` in
   * the selection; when there is none, the selection's whole text as one
   * line, with each `br` turned into a bare newline.
   */
  function DisplayContent(content: seq<Node>): (lines: seq<Line>)
    ensures |lines| > 0
  {
    var items := FindAll(ListItems, content);
    if |items| > 0 then ItemLines(items)
    else [[Plain(RenderSelection(content, "\n"))]]
  }

  /** The list items numbered from 1, one line each. */
  function ItemLines(items: seq<Hit>): seq<Line> {
    seq(|items|, i requires 0 <= i < |items| => ItemLine(i + 1, items[i].node))
  }

  /** One yellow line per `.attr` node, with its text rewritten. */
  function AttrLines(attrs: seq<Hit>): (lines: seq<Line>)
    ensures |lines| == |attrs|
  {
    seq(|attrs|, i requires 0 <= i < |attrs| => [Painted(Yellow, RewriteAttr(TextOf(attrs[i].node)))])
  }

  /** `content.Is("div")`. */
  predicate IsDiv(content: seq<Node>) {
    exists i :: 0 <= i < |content| && content[i].Element? && content[i].tag == "div"
  }

  /** For each word class, its label in blue, then the rendering of the element after it. */
  function WordClassLines(wcs: seq<Hit>): seq<Line>
    decreases |wcs|
  {
    if wcs == [] then []
    else [[Painted(Blue, TextOf(wcs[0].node))]] + DisplayContent(wcs[0].next) + WordClassLines(wcs[1..])
  }

  /** The three-way dispatch on a `div` content node (main.go:101-115). */
  function DivLines(content: seq<Node>): seq<Line> {
    var wcs := FindAll(WordClasses, content);
    if |wcs| > 0 then WordClassLines(wcs)
    else
      var lists := FindAll(Lists, content);
      if |lists| > 0 then DisplayContent(Nodes(lists)) else DisplayContent(content)
  }

  /** One shown headword: its text in red, its attributes, then its content if that is a `div`. */
  function EntryLines(h: Hit): seq<Line> {
    var content := h.next;
    [[Painted(Red, TextOf(h.node))]]
    + AttrLines(FindAll(Attributes, content))
    + (if IsDiv(content) then DivLines(content) else [])
  }

  /** The headwords of one results list, numbered from `pos`, kept when inside the window. */
  function HeadwordLines(r: Range, hits: seq<Hit>, pos: int): seq<Line>
    decreases |hits|
  {
    if hits == [] then []
    else (if InWindow(r, pos) then EntryLines(hits[0]) else []) + HeadwordLines(r, hits[1..], pos + 1)
  }

  /** Every `#resultsList` numbers its headwords from 1. */
  function ResultsLines(r: Range, results: seq<Hit>): seq<Line>
    decreases |results|
  {
    if results == [] then []
    else HeadwordLines(r, Find(Headwords, results[0].node), 1) + ResultsLines(r, results[1..])
  }

  /** `Text()` of each hit, in order. */
  function HitTexts(hits: seq<Hit>): (texts: seq<string>)
    ensures |texts| == |hits|
  {
    seq(|hits|, i requires 0 <= i < |hits| => TextOf(hits[i].node))
  }

  /** For each `#sas_word` block, the header, then its link texts joined by ", " after a tab. */
  function SuggestionLines(boxes: seq<Hit>): seq<Line>
    decreases |boxes|
  {
    if boxes == [] then []
    else
      [[Plain(SuggestionHeader)],
       [Plain("\t"), Painted(Blue, Join(HitTexts(Find(SuggestionLinks, boxes[0].node)), ", "))]]
      + SuggestionLines(boxes[1..])
  }

  /**
   * Everything main.go prints for a fetched page and a `--range` option. A
   * range that does not parse aborts before the buffer is flushed, so
   * nothing is printed.
   */
  function Page(doc: Node, option: string): Result<seq<Line>, NumError> {
    var page := Prune(doc);
    var r :- ParseRange(option);
    Success(ResultsLines(r, Find(Results, page)) + SuggestionLines(Find(SuggestionBox, page)))
  }

  // ---------------------------------------------------------------- displayContent

  lemma PlainTextOfPair(a: Piece, b: Piece)
    ensures PlainText([a, b]) == a.text + b.text
  {
    assert [a, b][1..] == [b];
    assert [b][1..] == [];
    assert PlainText([b]) == b.text + PlainText([]);
    assert PlainText([a, b]) == a.text + PlainText([b]);
  }

  /**
   * Line k of a list: the grey label `k.` (which reads back as k), a space,
   * and the item's runs of text joined by a newline and `len(k) + 2` spaces.
   */
  lemma ItemLineMeaning(k: nat, item: Node)
    ensures ItemLine(k, item)[0] == Painted(Grey, Itoa(k) + ".")
    ensures k <= MaxInt ==> Atoi(ItemLine(k, item)[0].text[..|Itoa(k)|]) == Success(k)
    ensures PlainText(ItemLine(k, item)) == Itoa(k) + ". " + Join(SegmentsOf(item), "\n" + Spaces(|Itoa(k)| + 2))
  {
    var idx := Itoa(k);
    var text := RenderOf(item, ItemBreak(idx));
    RenderOfIsJoin(item, ItemBreak(idx));
    PlainTextOfPair(Painted(Grey, idx + "."), Plain(" " + text));
    assert (idx + ".")[..|idx|] == idx;
    assert idx + "." + (" " + text) == idx + ". " + text;
    if k <= MaxInt {
      AtoiItoa(k);
    }
  }

  /** List path: exactly one line per list item, in document order, numbered from 1. */
  lemma ListPath(content: seq<Node>)
    requires |FindAll(ListItems, content)| > 0
    ensures |DisplayContent(content)| == |FindAll(ListItems, content)|
    ensures forall k :: 0 <= k < |FindAll(ListItems, content)| ==>
      DisplayContent(content)[k] == ItemLine(k + 1, FindAll(ListItems, content)[k].node)
  {
    var items := FindAll(ListItems, content);
    assert DisplayContent(content) == ItemLines(items);
    ItemLinesAt(items);
  }

  lemma ItemLinesAt(items: seq<Hit>)
    ensures |ItemLines(items)| == |items|
    ensures forall k :: 0 <= k < |items| ==> ItemLines(items)[k] == ItemLine(k + 1, items[k].node)
  {
  }

  /** Non-list path: exactly one line, the runs of text joined by bare newlines. */
  lemma PlainPath(content: seq<Node>)
    requires |FindAll(ListItems, content)| == 0
    ensures |DisplayContent(content)| == 1
    ensures DisplayContent(content)[0] == [Plain(Join(SegmentsOfSelection(content), "\n"))]
  {
    RenderSelectionIsJoin(content, "\n");
  }

  /** The continuation indent of item k is exactly as wide as its label `k. `. */
  lemma ItemIndentAligns(k: nat)
    ensures ItemBreak(Itoa(k)) == "\n" + Spaces(|Itoa(k) + ". "|)
    ensures |ItemBreak(Itoa(k))| == 1 + |Itoa(k)| + 2
    ensures 1 <= k <= 9 ==> ItemBreak(Itoa(k)) == "\n   "
  {
    if 1 <= k <= 9 {
      ItoaWidth(k);
      assert Spaces(3) == "   ";
    }
  }

  // ---------------------------------------------------------------- entries

  /** The lines of the given entries, one after the other. */
  function EntriesOf(hits: seq<Hit>): seq<Line>
    decreases |hits|
  {
    if hits == [] then [] else EntryLines(hits[0]) + EntriesOf(hits[1..])
  }

  lemma EntriesOfCons(h: Hit, rest: seq<Hit>)
    ensures EntriesOf([h] + rest) == EntryLines(h) + EntriesOf(rest)
  {
    assert ([h] + rest)[1..] == rest;
  }

  lemma {:induction false} HeadwordWindowFrom(r: Range, hits: seq<Hit>, k: nat)
    requires k <= |hits|
    ensures HeadwordLines(r, hits[k..], k + 1) == EntriesOf(ShownFrom(r, hits, k))
    decreases |hits| - k
  {
    if k < |hits| {
      HeadwordWindowFrom(r, hits, k + 1);
      var rest := hits[k..];
      assert rest[0] == hits[k] && rest[1..] == hits[k + 1..];
      ShownFromStep(r, hits, k);
      if InWindow(r, k + 1) {
        EntriesOfCons(hits[k], ShownFrom(r, hits, k + 1));
      }
    }
  }

  /**
   * Within one results list, the entries printed are exactly the shown
   * ones: those whose 1-based positions `Positions` lists, in order.
   */
  lemma HeadwordWindow(r: Range, hits: seq<Hit>)
    ensures HeadwordLines(r, hits, 1) == EntriesOf(Shown(r, hits))
  {
    HeadwordWindowFrom(r, hits, 0);
    assert hits[0..] == hits;
  }

  /** A reversed window, or one ending before 1, prints no entry at all, without an error. */
  lemma EmptyWindowPrintsNothing(r: Range, results: seq<Hit>)
    requires r.begin > r.end || r.end < 1
    ensures ResultsLines(r, results) == []
    decreases |results|
  {
    if results != [] {
      var hits := Find(Headwords, results[0].node);
      HeadwordWindow(r, hits);
      EmptyWindowPrintsNothing(r, results[1..]);
    }
  }

  /** A one-piece blue line: how a word-class label is printed. */
  predicate IsLabel(line: Line) {
    |line| == 1 && line[0].Painted? && line[0].colour == Blue
  }

  /** The texts of the label lines among `lines`, in order. */
  function Labels(lines: seq<Line>): seq<string>
    decreases |lines|
  {
    if lines == [] then [] else LabelOf(lines[0]) + Labels(lines[1..])
  }

  function LabelOf(line: Line): seq<string> {
    if IsLabel(line) then [line[0].text] else []
  }

  lemma {:induction false} LabelsAppend(a: seq<Line>, b: seq<Line>)
    ensures Labels(a + b) == Labels(a) + Labels(b)
    decreases |a|
  {
    if a == [] {
      assert a + b == b;
    } else {
      assert (a + b)[0] == a[0];
      assert (a + b)[1..] == a[1..] + b;
      LabelsAppend(a[1..], b);
      assert Labels(a + b) == LabelOf(a[0]) + Labels(a[1..] + b);
    }
  }

  lemma {:induction false} LabelsNone(lines: seq<Line>)
    requires forall i :: 0 <= i < |lines| ==> !IsLabel(lines[i])
    ensures Labels(lines) == []
    decreases |lines|
  {
    if lines != [] {
      LabelsNone(lines[1..]);
    }
  }

  lemma DisplayContentHasNoLabel(content: seq<Node>)
    ensures Labels(DisplayContent(content)) == []
  {
    LabelsNone(DisplayContent(content));
  }

  /**
   * The word-class path prints the word classes' texts as labels, one per
   * word class, in document order, and no other label.
   */
  lemma {:induction false} WordClassLabels(wcs: seq<Hit>)
    ensures Labels(WordClassLines(wcs)) == HitTexts(wcs)
    decreases |wcs|
  {
    if wcs != [] {
      var w, rest := wcs[0], wcs[1..];
      var first: seq<Line> := [[Painted(Blue, TextOf(w.node))]];
      HeadTail(wcs, []);
      WordClassLinesCons(w, rest);
      WordClassLinesSingle(w);
      WordClassLabels(rest);
      DisplayContentHasNoLabel(w.next);
      assert Labels(first) == [TextOf(w.node)] by {
        assert first[1..] == [];
      }
      LabelsAppend(first, DisplayContent(w.next));
      LabelsAppend(WordClassLines([w]), WordClassLines(rest));
      HitTextsCons(w, rest);
    }
  }

  lemma HitTextsCons(w: Hit, rest: seq<Hit>)
    ensures HitTexts([w] + rest) == [TextOf(w.node)] + HitTexts(rest)
  {
  }

  /**
   * The shape of an entry: the red headword, then one yellow line per
   * `.attr` node with its rewritten text, then body lines, which exist
   * exactly when the content is a `div`.
   */
  lemma EntryShape(h: Hit)
    ensures var lines := EntryLines(h);
      var attrs := FindAll(Attributes, h.next);
      && lines[0] == [Painted(Red, TextOf(h.node))]
      && (forall i :: 0 <= i < |attrs| ==> lines[1 + i] == [Painted(Yellow, RewriteAttr(TextOf(attrs[i].node)))])
      && (|lines| > 1 + |attrs| <==> IsDiv(h.next))
  {
    var content := h.next;
    var head: seq<Line> := [[Painted(Red, TextOf(h.node))]];
    var hits := FindAll(Attributes, content);
    var attrs := AttrLines(hits);
    var body := if IsDiv(content) then DivLines(content) else [];
    var lines := EntryLines(h);
    assert lines == (head + attrs) + body;
    forall i | 0 <= i < |hits|
      ensures lines[1 + i] == [Painted(Yellow, RewriteAttr(TextOf(hits[i].node)))]
    {
      assert lines[1 + i] == (head + attrs)[1 + i] == attrs[i];
    }
    if IsDiv(content) {
      DivLinesNonEmpty(content);
    }
    assert |lines| == 1 + |hits| + |body|;
  }

  lemma DivLinesNonEmpty(content: seq<Node>)
    ensures |DivLines(content)| > 0
  {
    var wcs := FindAll(WordClasses, content);
    if |wcs| > 0 {
      assert WordClassLines(wcs) == [[Painted(Blue, TextOf(wcs[0].node))]] + DisplayContent(wcs[0].next) + WordClassLines(wcs[1..]);
    }
  }

  lemma WordClassLinesSingle(w: Hit)
    ensures WordClassLines([w]) == [[Painted(Blue, TextOf(w.node))]] + DisplayContent(w.next)
  {
    assert [w][1..] == [];
  }

  lemma WordClassLinesCons(w: Hit, rest: seq<Hit>)
    ensures WordClassLines([w] + rest) == WordClassLines([w]) + WordClassLines(rest)
  {
    assert ([w] + rest)[0] == w && ([w] + rest)[1..] == rest;
    assert [w][1..] == [];
  }

  lemma {:induction false} WordClassLinesAppend(a: seq<Hit>, b: seq<Hit>)
    ensures WordClassLines(a + b) == WordClassLines(a) + WordClassLines(b)
    decreases |a|
  {
    if a == [] {
      assert a + b == b;
    } else {
      var w, rest := a[0], a[1..];
      WordClassLinesAppend(rest, b);
      HeadTail(a, b);
      WordClassLinesCons(w, rest + b);
      WordClassLinesCons(w, rest);
      Assoc(WordClassLines([w]), WordClassLines(rest), WordClassLines(b));
    }
  }

  /**
   * Each word-class label is followed at once by the rendering of the
   * element after that word class, between the lines of the word classes
   * before it and those after it.
   */
  lemma WordClassSplit(wcs: seq<Hit>, i: nat)
    requires i < |wcs|
    ensures WordClassLines(wcs) ==
      WordClassLines(wcs[..i]) + [[Painted(Blue, TextOf(wcs[i].node))]]
      + DisplayContent(wcs[i].next) + WordClassLines(wcs[i + 1..])
  {
    var pre, post := WordClassLines(wcs[..i]), WordClassLines(wcs[i + 1..]);
    var head: seq<Line> := [[Painted(Blue, TextOf(wcs[i].node))]];
    var body := DisplayContent(wcs[i].next);
    SplitAround(wcs, i);
    WordClassLinesAppend(wcs[..i], [wcs[i]] + wcs[i + 1..]);
    WordClassLinesCons(wcs[i], wcs[i + 1..]);
    WordClassLinesSingle(wcs[i]);
    assert WordClassLines(wcs) == pre + ((head + body) + post);
    Regroup(pre, head, body, post);
  }

  /** Under a parent that is not a list, a forest without `ul` or `ol` holds no list item. */
  lemma {:induction false} NoListsNoItems(cs: seq<Node>, parentTag: string)
    requires parentTag != "ol" && parentTag != "ul"
    requires FindIn(Lists, cs, parentTag) == []
    ensures FindIn(ListItems, cs, parentTag) == []
    decreases cs
  {
    if cs != [] {
      var c := cs[0];
      NoListsNoItems(cs[1..], parentTag);
      if c.Element? {
        NoListsNoItems(c.children, c.tag);
      }
    }
  }

  /**
   * Under a parent that is not a list, and when no list holds another,
   * the items of the lists found are the items found: `Find("ul, ol")`
   * followed by `Find("ol > li, ul > li")` loses and adds no item.
   */
  lemma ItemsOfLists(cs: seq<Node>, parentTag: string)
    requires parentTag != "ol" && parentTag != "ul"
    requires Unnested(Lists, FindIn(Lists, cs, parentTag))
    ensures FindAll(ListItems, Nodes(FindIn(Lists, cs, parentTag))) == FindIn(ListItems, cs, parentTag)
  {
    assert ListItems == ChildOf({"ul", "ol"}, "li");
    ChildrenOfFound({"ul", "ol"}, "li", cs, parentTag);
  }

  /**
   * The list branch of the dispatch: a `div` without word classes but with
   * lists, none nested in another, prints the lists' items exactly as
   * `displayContent` on the `div` would; when the lists hold no item, it
   * prints the lists' text only, and the `div`'s text outside them is
   * dropped.
   */
  lemma DivLists(d: Node)
    requires d.Element? && d.tag == "div"
    requires FindAll(WordClasses, [d]) == [] && FindAll(Lists, [d]) != []
    requires Unnested(Lists, FindAll(Lists, [d]))
    ensures FindAll(ListItems, [d]) != [] ==> DivLines([d]) == DisplayContent([d])
    ensures FindAll(ListItems, [d]) == [] ==>
      DivLines([d]) == [[Plain(RenderSelection(Nodes(FindAll(Lists, [d])), "\n"))]]
  {
    FindAllSingle(Lists, d);
    FindAllSingle(ListItems, d);
    ItemsOfLists(d.children, d.tag);
  }

  /**
   * A `div` with neither word classes nor lists prints its own text as one
   * line, with each `br` turned into a bare newline.
   */
  lemma DivPlain(d: Node)
    requires d.Element? && d.tag == "div"
    requires FindAll(WordClasses, [d]) == [] && FindAll(Lists, [d]) == []
    ensures DivLines([d]) == [[Plain(Join(SegmentsOf(d), "\n"))]]
  {
    FindAllSingle(Lists, d);
    FindAllSingle(ListItems, d);
    NoListsNoItems(d.children, d.tag);
    PlainPath([d]);
    SingleSelection(d);
  }

  /**
   * Word-class labels: a `div` content prints the texts of its word-class
   * nodes as labels, in document order; any other content prints none.
   */
  lemma EntryLabels(h: Hit)
    ensures Labels(EntryLines(h)) ==
      if IsDiv(h.next) then HitTexts(FindAll(WordClasses, h.next)) else []
  {
    var content := h.next;
    var head: seq<Line> := [[Painted(Red, TextOf(h.node))]];
    var attrs := AttrLines(FindAll(Attributes, content));
    var body := if IsDiv(content) then DivLines(content) else [];
    assert EntryLines(h) == head + attrs + body;
    LabelsNone(head + attrs);
    LabelsAppend(head + attrs, body);
    if IsDiv(content) {
      var wcs := FindAll(WordClasses, content);
      if |wcs| > 0 {
        WordClassLabels(wcs);
      } else {
        var lists := FindAll(Lists, content);
        DisplayContentHasNoLabel(if |lists| > 0 then Nodes(lists) else content);
      }
    } else {
      assert Labels(body) == [];
    }
  }

  // ---------------------------------------------------------------- suggestions

  /**
   * Two lines per suggestion block: the header, then a tab and the link
   * texts joined by ", ", from which the texts can be read back when there
   * is at least one and none of them contains a comma.
   */
  lemma {:induction false} SuggestionAt(boxes: seq<Hit>, i: nat)
    requires i < |boxes|
    ensures var lines := SuggestionLines(boxes);
      var texts := HitTexts(Find(SuggestionLinks, boxes[i].node));
      && 2 * i + 1 < |lines|
      && lines[2 * i] == [Plain(SuggestionHeader)]
      && lines[2 * i + 1] == [Plain("\t"), Painted(Blue, Join(texts, ", "))]
    decreases i
  {
    var b, tail := boxes[0], boxes[1..];
    var block, rest := SuggestionLines([b]), SuggestionLines(tail);
    assert boxes == [b] + tail;
    SuggestionLinesCons(b, tail);
    SuggestionLinesSingle(b);
    var lines := SuggestionLines(boxes);
    assert lines == block + rest;
    var header := [Plain(SuggestionHeader)];
    var row := [Plain("\t"), Painted(Blue, Join(HitTexts(Find(SuggestionLinks, boxes[i].node)), ", "))];
    if i > 0 {
      SuggestionAt(tail, i - 1);
      assert tail[i - 1] == boxes[i];
      PairAfter(block, rest, i - 1, header, row);
    } else {
      assert lines[0] == block[0] && lines[1] == block[1];
    }
  }

  /** Line pair `j` of `rest` is line pair `j + 1` once a two-line block is put in front. */
  lemma PairAfter(block: seq<Line>, rest: seq<Line>, j: nat, x: Line, y: Line)
    requires |block| == 2 && 2 * j + 1 < |rest|
    requires rest[2 * j] == x && rest[2 * j + 1] == y
    ensures 2 * (j + 1) + 1 < |block + rest|
    ensures (block + rest)[2 * (j + 1)] == x && (block + rest)[2 * (j + 1) + 1] == y
  {
    IndexAfter(block, rest, 2 * (j + 1));
    IndexAfter(block, rest, 2 * (j + 1) + 1);
  }

  lemma SuggestionLinesSingle(b: Hit)
    ensures SuggestionLines([b]) ==
      [[Plain(SuggestionHeader)], [Plain("\t"), Painted(Blue, Join(HitTexts(Find(SuggestionLinks, b.node)), ", "))]]
  {
    assert [b][1..] == [];
  }

  lemma SuggestionLinesCons(b: Hit, rest: seq<Hit>)
    ensures SuggestionLines([b] + rest) == SuggestionLines([b]) + SuggestionLines(rest)
  {
    assert ([b] + rest)[0] == b && ([b] + rest)[1..] == rest;
    assert [b][1..] == [];
  }

  lemma {:induction false} SuggestionCount(boxes: seq<Hit>)
    ensures |SuggestionLines(boxes)| == 2 * |boxes|
    decreases |boxes|
  {
    if boxes != [] {
      SuggestionCount(boxes[1..]);
    }
  }

  /** The second line of a block reads back as its link texts when none holds a comma. */
  lemma SuggestionRow(texts: seq<string>)
    ensures PlainText([Plain("\t"), Painted(Blue, Join(texts, ", "))]) == "\t" + Join(texts, ", ")
    ensures |texts| > 0 && (forall j :: 0 <= j < |texts| ==> Avoids(texts[j], ',')) ==>
      Split(("\t" + Join(texts, ", "))[1..], ", ") == texts
  {
    PlainTextOfPair(Plain("\t"), Painted(Blue, Join(texts, ", ")));
    assert ("\t" + Join(texts, ", "))[1..] == Join(texts, ", ");
    if |texts| > 0 && (forall j :: 0 <= j < |texts| ==> Avoids(texts[j], ',')) {
      SplitJoin(texts, ", ");
    }
  }

  /**
   * Two lines per suggestion block: the header, then a tab and the link
   * texts joined by ", ", from which the texts can be read back when there
   * is at least one and none of them contains a comma.
   */
  lemma SuggestionShape(boxes: seq<Hit>)
    ensures var lines := SuggestionLines(boxes);
      |lines| == 2 * |boxes| &&
      forall i :: 0 <= i < |boxes| ==>
        var texts := HitTexts(Find(SuggestionLinks, boxes[i].node));
        && lines[2 * i] == [Plain(SuggestionHeader)]
        && PlainText(lines[2 * i + 1]) == "\t" + Join(texts, ", ")
        && (|texts| > 0 && (forall j :: 0 <= j < |texts| ==> Avoids(texts[j], ',')) ==>
              Split(PlainText(lines[2 * i + 1])[1..], ", ") == texts)
  {
    SuggestionCount(boxes);
    forall i | 0 <= i < |boxes|
      ensures var texts := HitTexts(Find(SuggestionLinks, boxes[i].node));
        && SuggestionLines(boxes)[2 * i] == [Plain(SuggestionHeader)]
        && PlainText(SuggestionLines(boxes)[2 * i + 1]) == "\t" + Join(texts, ", ")
        && (|texts| > 0 && (forall j :: 0 <= j < |texts| ==> Avoids(texts[j], ',')) ==>
              Split(PlainText(SuggestionLines(boxes)[2 * i + 1])[1..], ", ") == texts)
    {
      SuggestionAt(boxes, i);
      SuggestionRow(HitTexts(Find(SuggestionLinks, boxes[i].node)));
    }
  }

  // ---------------------------------------------------------------- whole page

  /** A range that does not parse aborts and prints nothing; any other prints the page. */
  lemma PageFailsOnlyOnRange(doc: Node, option: string)
    ensures Page(doc, option).Failure? <==> ParseRange(option).Failure?
    ensures ParseRange(option).Failure? ==> Page(doc, option).error == ParseRange(option).error
  {
  }

  /** The suggestion lines close every page and do not depend on the range. */
  lemma SuggestionsIgnoreRange(doc: Node, option1: string, option2: string)
    requires Page(doc, option1).Success? && Page(doc, option2).Success?
    ensures var s := SuggestionLines(Find(SuggestionBox, Prune(doc)));
      var out1 := Page(doc, option1).value;
      var out2 := Page(doc, option2).value;
      |s| <= |out1| && |s| <= |out2| &&
      out1[|out1| - |s|..] == s && out2[|out2| - |s|..] == s
  {
    var page := Prune(doc);
    var s := SuggestionLines(Find(SuggestionBox, page));
    var body1 := ResultsLines(ParseRange(option1).value, Find(Results, page));
    var body2 := ResultsLines(ParseRange(option2).value, Find(Results, page));
    assert (body1 + s)[|body1|..] == s;
    assert (body2 + s)[|body2|..] == s;
  }

  /** With no headword in the window only the suggestion lines are printed. */
  lemma EmptyWindowPage(doc: Node, option: string)
    requires ParseRange(option).Success?
    requires ParseRange(option).value.begin > ParseRange(option).value.end || ParseRange(option).value.end < 1
    ensures Page(doc, option) == Success(SuggestionLines(Find(SuggestionBox, Prune(doc))))
  {
    var page := Prune(doc);
    var s := SuggestionLines(Find(SuggestionBox, page));
    EmptyWindowPrintsNothing(ParseRange(option).value, Find(Results, page));
    assert [] + s == s;
  }

  // ---------------------------------------------------------------- examples

  function Elem(tag: string, children: seq<Node>): Node {
    Element(tag, "", {}, children)
  }

  const Br: Node := Elem("br", [])

  /** Text and empty breaks hold no list item. */
  lemma {:induction false} NoItemsAmongText(cs: seq<Node>, parentTag: string)
    requires forall i :: 0 <= i < |cs| ==> cs[i].TextNode? || cs[i] == Br
    ensures FindIn(ListItems, cs, parentTag) == []
    decreases |cs|
  {
    if cs != [] {
      NoItemsAmongText(cs[1..], parentTag);
      assert FindIn(ListItems, Br.children, "br") == [];
    }
  }

  lemma TextSegment(t: string)
    ensures SegmentsIn([TextNode(t)]) == [t]
  {
    assert [TextNode(t)][1..] == [];
    assert t + [] == t;
    var empty: seq<string> := [[]];
    assert empty[1..] == [];
    assert Merge([t], empty) == [] + [t] + [];
  }

  lemma BreakSegment(rest: seq<string>)
    requires |rest| > 0
    ensures Merge([[], []], rest) == [[]] + rest
  {
    assert [] + rest[0] == rest[0];
    assert [rest[0]] + rest[1..] == rest;
  }

  /** A text run followed by a break closes a segment. */
  lemma TextThenBreak(t: string, rest: seq<Node>)
    ensures SegmentsIn([TextNode(t), Br] + rest) == [t] + SegmentsIn(rest)
  {
    var cs := [TextNode(t), Br] + rest;
    assert cs[1..] == [Br] + rest;
    assert ([Br] + rest)[1..] == rest;
    assert Br.Element? && Br.tag == "br";
    BreakSegment(SegmentsIn(rest));
    assert SegmentsIn([Br] + rest) == [[]] + SegmentsIn(rest);
    assert t + [] == t;
  }

  /** An ordered list of three items, the second broken in two by a `br`. */
  function ExampleList(a: string, b: string, c: string, d: string): seq<Node> {
    [Elem("ol", [Elem("li", [TextNode(a)]), Elem("li", [TextNode(b), Br, TextNode(c)]), Elem("li", [TextNode(d)])])]
  }

  lemma ItemHit(item: Node, rest: seq<Node>)
    requires item.Element? && item.tag == "li"
    requires FindIn(ListItems, item.children, "li") == []
    ensures FindIn(ListItems, [item] + rest, "ol") == [Hit(item, NextElement(rest))] + FindIn(ListItems, rest, "ol")
  {
    FindInCons(ListItems, item, rest, "ol");
    assert Matches(ListItems, item, "ol");
  }

  /** Three items directly under an `ol`, none holding an item, are its three hits, in order. */
  lemma ThreeItems(i1: Node, i2: Node, i3: Node)
    requires i1.Element? && i1.tag == "li" && FindIn(ListItems, i1.children, "li") == []
    requires i2.Element? && i2.tag == "li" && FindIn(ListItems, i2.children, "li") == []
    requires i3.Element? && i3.tag == "li" && FindIn(ListItems, i3.children, "li") == []
    ensures var hits := FindIn(ListItems, [i1, i2, i3], "ol");
      |hits| == 3 && hits[0].node == i1 && hits[1].node == i2 && hits[2].node == i3
  {
    var empty: seq<Node> := [];
    var q3 := [i3] + empty;
    var q2 := [i2] + q3;
    var q1 := [i1] + q2;
    assert q1 == [i1, i2, i3];
    ItemHit(i3, empty);
    ItemHit(i2, q3);
    ItemHit(i1, q2);
    var h3 := FindIn(ListItems, q3, "ol");
    assert |h3| == 1 && h3[0].node == i3;
    var h2 := FindIn(ListItems, q2, "ol");
    assert |h2| == 2 && h2[0].node == i2 && h2[1].node == i3;
  }

  lemma ExampleListItems(a: string, b: string, c: string, d: string)
    ensures |FindAll(ListItems, ExampleList(a, b, c, d))| == 3
    ensures FindAll(ListItems, ExampleList(a, b, c, d))[0].node == Elem("li", [TextNode(a)])
    ensures FindAll(ListItems, ExampleList(a, b, c, d))[1].node == Elem("li", [TextNode(b), Br, TextNode(c)])
    ensures FindAll(ListItems, ExampleList(a, b, c, d))[2].node == Elem("li", [TextNode(d)])
  {
    var i1, i2, i3 := Elem("li", [TextNode(a)]), Elem("li", [TextNode(b), Br, TextNode(c)]), Elem("li", [TextNode(d)]);
    ItemsHoldNoItem(a, b, c, d);
    ThreeItems(i1, i2, i3);
    FindAllSingle(ListItems, Elem("ol", [i1, i2, i3]));
  }

  lemma ItemsHoldNoItem(a: string, b: string, c: string, d: string)
    ensures FindIn(ListItems, [TextNode(a)], "li") == []
    ensures FindIn(ListItems, [TextNode(b), Br, TextNode(c)], "li") == []
    ensures FindIn(ListItems, [TextNode(d)], "li") == []
  {
    NoItemsAmongText([TextNode(a)], "li");
    NoItemsAmongText([TextNode(b), Br, TextNode(c)], "li");
    NoItemsAmongText([TextNode(d)], "li");
  }

  lemma ItemRuns(b: string, c: string)
    ensures SegmentsOf(Elem("li", [TextNode(b), Br, TextNode(c)])) == [b, c]
  {
    var bc := [TextNode(b), Br, TextNode(c)];
    assert bc == [TextNode(b), Br] + [TextNode(c)];
    TextThenBreak(b, [TextNode(c)]);
    TextSegment(c);
  }

  lemma SecondItemText(b: string, c: string)
    ensures PlainText(ItemLine(2, Elem("li", [TextNode(b), Br, TextNode(c)]))) == "2. " + b + "\n   " + c
  {
    var item := Elem("li", [TextNode(b), Br, TextNode(c)]);
    ItemLineMeaning(2, item);
    ItemRuns(b, c);
    ItemIndentAligns(2);
    JoinTwo(b, c, "\n   ");
    assert Itoa(2) == "2";
  }

  /**
   * An ordered list of three items whose second item holds a line break:
   * three lines, the second continuing under its text, past the label `2. `.
   */
  lemma ListExample(a: string, b: string, c: string, d: string)
    ensures |DisplayContent(ExampleList(a, b, c, d))| == 3
    ensures PlainText(DisplayContent(ExampleList(a, b, c, d))[1]) == "2. " + b + "\n   " + c
  {
    ExampleListItems(a, b, c, d);
    ListPath(ExampleList(a, b, c, d));
    SecondItemText(b, c);
  }

  /** A selection of one node shows that node's runs. */
  lemma SingleSelection(n: Node)
    ensures SegmentsOfSelection([n]) == SegmentsOf(n)
  {
    assert [n][1..] == [];
    MergeWithEmpty(SegmentsOf(n));
  }

  lemma PlainExampleRuns(a: string, b: string, c: string)
    ensures SegmentsIn([TextNode(a), Br, TextNode(b), Br, TextNode(c)]) == [a, b, c]
  {
    var cs := [TextNode(a), Br, TextNode(b), Br, TextNode(c)];
    assert cs == [TextNode(a), Br] + ([TextNode(b), Br] + [TextNode(c)]);
    TextThenBreak(a, [TextNode(b), Br] + [TextNode(c)]);
    TextThenBreak(b, [TextNode(c)]);
    TextSegment(c);
  }

  /** Content without a list, holding two line breaks: three runs on one printed block. */
  lemma PlainExample(a: string, b: string, c: string)
    ensures DisplayContent([Elem("div", [TextNode(a), Br, TextNode(b), Br, TextNode(c)])])
      == [[Plain(a + "\n" + b + "\n" + c)]]
  {
    var div := Elem("div", [TextNode(a), Br, TextNode(b), Br, TextNode(c)]);
    var content := [div];
    NoItemsAmongText(div.children, "div");
    assert content[1..] == [];
    assert FindAll(ListItems, content) == [];
    PlainPath(content);
    PlainExampleRuns(a, b, c);
    SingleSelection(div);
    JoinThree(a, b, c, "\n");
  }
}

=== FILE: seqs.dfy ===
/** Small facts about sequences that the renderer's proofs lean on. */
module Seqs {

  /** A sequence is its prefix before `i`, its element at `i`, and the rest. */
  lemma SplitAround<T>(xs: seq<T>, i: nat)
    requires i < |xs|
    ensures xs == xs[..i] + ([xs[i]] + xs[i + 1..])
  {
  }

  /** A non-empty sequence is its head and tail, and so is anything appended to it. */
  lemma HeadTail<T>(a: seq<T>, b: seq<T>)
    requires |a| > 0
    ensures a == [a[0]] + a[1..]
    ensures a + b == [a[0]] + (a[1..] + b)
  {
  }

  lemma EmptyPrefix<T>(a: seq<T>)
    ensures [] + a == a
  {
  }

  lemma Assoc<T>(a: seq<T>, b: seq<T>, c: seq<T>)
    ensures a + (b + c) == (a + b) + c
  {
  }

  lemma IndexAfter<T>(a: seq<T>, b: seq<T>, j: nat)
    requires |a| <= j < |a| + |b|
    ensures (a + b)[j] == b[j - |a|]
  {
  }

  lemma Regroup<T>(a: seq<T>, b: seq<T>, c: seq<T>, d: seq<T>)
    ensures a + ((b + c) + d) == a + b + c + d
  {
  }

  /** Dropping a prefix of the first part of a concatenation leaves the second part whole. */
  lemma DropAppend<T>(a: seq<T>, c: seq<T>, k: nat)
    requires k <= |a|
    ensures (a + c)[k..] == a[k..] + c
  {
  }
}

=== FILE: strings.dfy ===
/** The few `strings` operations the renderer uses, with their inverses. */
module Strings {

  /** `strings.Join`: the parts with `sep` between neighbours. */
  function Join(parts: seq<string>, sep: string): string
    decreases |parts|
  {
    if parts == [] then []
    else if |parts| == 1 then parts[0]
    else parts[0] + sep + Join(parts[1..], sep)
  }

  /** `strings.Repeat(" ", n)`. */
  function Spaces(n: nat): (s: string)
    ensures |s| == n
    ensures forall i :: 0 <= i < n ==> s[i] == ' '
  {
    if n == 0 then [] else [' '] + Spaces(n - 1)
  }

  /**
   * Cuts `s` at every occurrence of `sep` read left to right; the result
   * always has at least one part.
   */
  function Split(s: string, sep: string): (parts: seq<string>)
    requires |sep| > 0
    ensures |parts| > 0
    decreases |s|
  {
    if |s| >= |sep| && s[..|sep|] == sep then [[]] + Split(s[|sep|..], sep)
    else if s == [] then [[]]
    else
      var rest := Split(s[1..], sep);
      [[s[0]] + rest[0]] + rest[1..]
  }

  /** Glues the last piece of `xs` to the first of `ys`, as adjacent text runs merge. */
  function Merge(xs: seq<string>, ys: seq<string>): (r: seq<string>)
    requires |xs| > 0 && |ys| > 0
    ensures |r| == |xs| + |ys| - 1
  {
    xs[..|xs| - 1] + [xs[|xs| - 1] + ys[0]] + ys[1..]
  }

  predicate Avoids(s: string, c: char) {
    forall i :: 0 <= i < |s| ==> s[i] != c
  }

  lemma {:induction false} SplitAfterPlain(x: string, rest: string, sep: string)
    requires |sep| > 0 && Avoids(x, sep[0])
    ensures Split(x + rest, sep) == [x + Split(rest, sep)[0]] + Split(rest, sep)[1..]
    decreases |x|
  {
    if x != [] {
      var s := x + rest;
      assert s[0] == x[0];
      assert s[1..] == x[1..] + rest;
      SplitAfterPlain(x[1..], rest, sep);
      assert [x[0]] + (x[1..] + Split(rest, sep)[0]) == x + Split(rest, sep)[0];
    } else {
      var r := Split(rest, sep);
      assert x + rest == rest;
      assert x + r[0] == r[0];
      assert [r[0]] + r[1..] == r;
    }
  }

  /** Splitting a join recovers the parts when no part contains the separator's first character. */
  lemma {:induction false} SplitJoin(parts: seq<string>, sep: string)
    requires |sep| > 0 && |parts| > 0
    requires forall i :: 0 <= i < |parts| ==> Avoids(parts[i], sep[0])
    ensures Split(Join(parts, sep), sep) == parts
    decreases |parts|
  {
    if |parts| == 1 {
      SplitAfterPlain(parts[0], [], sep);
      assert parts[0] + [] == parts[0];
    } else {
      var tail := Join(parts[1..], sep);
      SplitJoin(parts[1..], sep);
      assert parts[0] + sep + tail == parts[0] + (sep + tail);
      SplitAfterPlain(parts[0], sep + tail, sep);
      assert (sep + tail)[..|sep|] == sep;
      assert (sep + tail)[|sep|..] == tail;
      assert Split(sep + tail, sep) == [[]] + parts[1..];
      assert parts[0] + [] == parts[0];
      assert [parts[0]] + parts[1..] == parts;
    }
  }

  /** Joining merged pieces is joining each side and concatenating. */
  lemma {:induction false} JoinMerge(xs: seq<string>, ys: seq<string>, sep: string)
    requires |xs| > 0 && |ys| > 0
    ensures Join(Merge(xs, ys), sep) == Join(xs, sep) + Join(ys, sep)
    decreases |xs|
  {
    if |xs| == 1 {
      var m := Merge(xs, ys);
      assert m == [xs[0] + ys[0]] + ys[1..];
      if |ys| > 1 {
        assert m[1..] == ys[1..];
      }
    } else {
      JoinMerge(xs[1..], ys, sep);
      var m := Merge(xs, ys);
      assert m[0] == xs[0];
      assert m[1..] == Merge(xs[1..], ys);
    }
  }

  /** The length of a join: the parts plus one separator per gap. */
  lemma {:induction false} JoinLength(parts: seq<string>, sep: string)
    requires |parts| > 0
    ensures |Join(parts, sep)| == SumLengths(parts) + (|parts| - 1) * |sep|
    decreases |parts|
  {
    if |parts| > 1 {
      JoinLength(parts[1..], sep);
    }
  }

  function SumLengths(parts: seq<string>): nat
    decreases |parts|
  {
    if parts == [] then 0 else |parts[0]| + SumLengths(parts[1..])
  }

  /** Two parts joined: the separator once, between them. */
  lemma JoinTwo(b: string, c: string, sep: string)
    ensures Join([b, c], sep) == b + sep + c
  {
    var parts: seq<string> := [b, c];
    assert parts[1..] == [c];
  }

  /** Three parts joined: the separator between each neighbouring pair. */
  lemma JoinThree(a: string, b: string, c: string, sep: string)
    ensures Join([a, b, c], sep) == a + sep + b + sep + c
  {
    var parts: seq<string> := [a, b, c];
    assert parts[1..] == [b, c];
    JoinTwo(b, c, sep);
  }

  /** Merging with a single empty run changes nothing. */
  lemma MergeWithEmpty(xs: seq<string>)
    requires |xs| > 0
    ensures Merge(xs, [[]]) == xs
  {
    var empty: seq<string> := [[]];
    assert empty[1..] == [];
    assert xs[|xs| - 1] + [] == xs[|xs| - 1];
  }
}

=== FILE: window.dfy ===
/**
 * The `--range` option (main.go:49, 79, 83-90) and the 1-based window test
 * applied to headwords (main.go:92-93).
 */
module Window {
  import opened Wrappers
  import opened Numerals
  import opened Regex

  /** Inclusive bounds of the headword positions to show; no order is enforced. */
  datatype Range = Range(begin: int, end: int)

  /** The option's default value. */
  const DefaultRange: string := "1:3"

  /**
   * Each bound is what is left of the option after every `(\d+):(\d+)`
   * match is replaced by its first (or second) group, read by `Atoi`; a
   * failed read aborts the program.
   */
  function ParseRange(s: string): Result<Range, NumError> {
    var begin :- Atoi(ReplaceAll(RangeRx, Group(1), s));
    var end :- Atoi(ReplaceAll(RangeRx, Group(2), s));
    Success(Range(begin, end))
  }

  /** The test main.go applies to the 1-based position of each headword. */
  predicate InWindow(r: Range, p: int) {
    r.begin <= p && p <= r.end
  }

  /** The positions among `1..n` that are shown, in ascending order. */
  function Positions(r: Range, n: nat): (ps: seq<int>)
    ensures forall i :: 0 <= i < |ps| ==> 1 <= ps[i] <= n
  {
    var lo := if r.begin < 1 then 1 else r.begin;
    var hi := if r.end > n then n else r.end;
    if lo > hi then [] else seq(hi - lo + 1, i => lo + i)
  }

  /** A position is listed exactly when it exists and passes the window test. */
  lemma PositionsMeaning(r: Range, n: nat, p: int)
    ensures p in Positions(r, n) <==> 1 <= p <= n && InWindow(r, p)
  {
    var ps := Positions(r, n);
    if 1 <= p <= n && InWindow(r, p) {
      var lo := if r.begin < 1 then 1 else r.begin;
      assert ps[p - lo] == p;
    }
  }

  /** The positions are listed in increasing order, each once. */
  lemma PositionsIncreasing(r: Range, n: nat)
    ensures forall i, j :: 0 <= i < j < |Positions(r, n)| ==> Positions(r, n)[i] < Positions(r, n)[j]
  {
  }

  /** A reversed window, or one ending before position 1, shows nothing. */
  lemma EmptyWindow(r: Range, n: nat)
    requires r.begin > r.end || r.end < 1
    ensures Positions(r, n) == []
    ensures forall p :: !(1 <= p <= n && InWindow(r, p))
  {
  }

  /** The elements of `xs` whose 1-based positions pass the window test: a contiguous run. */
  function Shown<T>(r: Range, xs: seq<T>): (ys: seq<T>)
    ensures |ys| == |Positions(r, |xs|)|
    ensures forall i :: 0 <= i < |ys| ==> ys[i] == xs[Positions(r, |xs|)[i] - 1]
  {
    ShownFrom(r, xs, 0)
  }

  /** The shown elements among those at positions `k + 1` onwards. */
  function ShownFrom<T>(r: Range, xs: seq<T>, k: nat): seq<T>
    requires k <= |xs|
  {
    var lo := if r.begin < k + 1 then k + 1 else r.begin;
    var hi := if r.end > |xs| then |xs| else r.end;
    if lo > hi then [] else xs[lo - 1..hi]
  }

  /** Position `k + 1` joins the run exactly when it passes the window test. */
  lemma ShownFromStep<T>(r: Range, xs: seq<T>, k: nat)
    requires k < |xs|
    ensures InWindow(r, k + 1) ==> ShownFrom(r, xs, k) == [xs[k]] + ShownFrom(r, xs, k + 1)
    ensures !InWindow(r, k + 1) ==> ShownFrom(r, xs, k) == ShownFrom(r, xs, k + 1)
  {
    var hi := if r.end > |xs| then |xs| else r.end;
    if InWindow(r, k + 1) {
      assert xs[k..hi] == [xs[k]] + xs[k + 1..hi];
    }
  }

  /** `N:M` with two numerals reads as the two numbers, when they fit in an `int`. */
  lemma ParseNumerals(d1: string, d2: string)
    requires IsNumeral(d1) && IsNumeral(d2)
    ensures ParseRange(d1 + ":" + d2) ==
      if Value(d1) <= MaxInt && Value(d2) <= MaxInt then Success(Range(Value(d1), Value(d2)))
      else Failure(ErrRange)
  {
    var s := d1 + ":" + d2;
    assert s == d1 + (":" + d2);
    DigitRunAll(d1);
    DigitRunAll(d2);
    DigitRunAppend(d1, ":" + d2);
    assert DigitRun(s) == |d1|;
    assert s[|d1| + 1..] == d2;
    assert RangeMatchLen(s) == |s|;
    ReplaceAllWhole(RangeRx, Group(1), s);
    ReplaceAllWhole(RangeRx, Group(2), s);
    assert s[..|d1|] == d1;
    AtoiNumeral(d1);
    AtoiNumeral(d2);
  }

  /** A range written with `Itoa` reads back as itself. */
  lemma ParseRangeRoundTrip(begin: nat, end: nat)
    requires begin <= MaxInt && end <= MaxInt
    ensures ParseRange(Itoa(begin) + ":" + Itoa(end)) == Success(Range(begin, end))
  {
    ValueOfItoa(begin);
    ValueOfItoa(end);
    ParseNumerals(Itoa(begin), Itoa(end));
  }

  /** The default option shows headwords 1 to 3. */
  lemma DefaultRangeParses()
    ensures ParseRange(DefaultRange) == Success(Range(1, 3))
  {
    assert DefaultRange == Itoa(1) + ":" + Itoa(3);
    ParseRangeRoundTrip(1, 3);
  }

  /** Without a colon nothing is replaced: both bounds are the whole option. */
  lemma ParseWithoutColon(s: string)
    requires forall i :: 0 <= i < |s| ==> s[i] != ':'
    ensures ParseRange(s) == match Atoi(s)
      case Success(v) => Success(Range(v, v))
      case Failure(e) => Failure(e)
  {
    forall i | 0 <= i < |s|
      ensures MatchLen(RangeRx, s[i..]) == 0
    {
      var k := DigitRun(s[i..]);
      assert k < |s[i..]| ==> s[i..][k] == s[i + k];
    }
    ReplaceAllMatchFree(RangeRx, Group(1), s);
    ReplaceAllMatchFree(RangeRx, Group(2), s);
  }

  /** Text that is not a number is rejected. */
  lemma RejectsWord()
    ensures ParseRange("abc").Failure?
  {
    ParseWithoutColon("abc");
    assert !IsIntLiteral("abc") by {
      assert !IsDigit("abc"[0]);
    }
  }

  /** A third field survives the replacement (`1:3:5` leaves `1:5`) and is rejected. */
  lemma RejectsThreeFields()
    ensures ReplaceAll(RangeRx, Group(1), "1:3:5") == "1:5"
    ensures ParseRange("1:3:5").Failure?
  {
    var s := "1:3:5";
    assert s == "1:3" + ":5";
    assert DigitRun("1:3:5") == 1;
    assert DigitRun("3:5") == 1 by {
      assert "1:3:5"[2..] == "3:5";
    }
    assert RangeMatchLen(s) == 3;
    ReplaceAllAtMatch(RangeRx, Group(1), "1:3", ":5");
    RangeFreeUnchanged(":5", 1);
    var left := ReplaceAll(RangeRx, Group(1), s);
    assert left == "1:5";
    assert !IsIntLiteral(left) by {
      assert !IsDigit(left[1]);
    }
  }

  /** A range match starts with digits up to a colon that has a digit on either side. */
  lemma RangeMatchNeedsColon(t: string)
    ensures var k := DigitRun(t);
      RangeMatchLen(t) > 0 ==> 0 < k < |t| - 1 && t[k] == ':' && IsDigit(t[k - 1]) && IsDigit(t[k + 1])
  {
    var k := DigitRun(t);
    if RangeMatchLen(t) > 0 {
      assert t[..k][k - 1] == t[k - 1];
      assert t[k + 1..][0] == t[k + 1];
    }
  }

  /** Where no colon stands between two digits, no `N:M` match starts at `i`. */
  predicate NoDigitColonDigit(s: string) {
    forall i :: 0 < i < |s| - 1 && s[i] == ':' ==> !(IsDigit(s[i - 1]) && IsDigit(s[i + 1]))
  }

  lemma NoRangeAt(s: string, i: nat)
    requires NoDigitColonDigit(s) && i < |s|
    ensures MatchLen(RangeRx, s[i..]) == 0
  {
    var t := s[i..];
    RangeMatchNeedsColon(t);
    var k := DigitRun(t);
    if 0 < k < |t| - 1 {
      assert t[k - 1] == s[i + k - 1] && t[k] == s[i + k] && t[k + 1] == s[i + k + 1];
    }
  }

  /**
   * Text in which no colon stands between two digits holds no `N:M`, so
   * both substitutions leave it as it is.
   */
  lemma RangeFreeUnchanged(s: string, g: nat)
    requires NoDigitColonDigit(s)
    ensures ReplaceAll(RangeRx, Group(g), s) == s
  {
    forall i | 0 <= i < |s|
      ensures MatchLen(RangeRx, s[i..]) == 0
    {
      NoRangeAt(s, i);
    }
    ReplaceAllMatchFree(RangeRx, Group(g), s);
  }
}

=== FILE: wrappers.dfy ===
/** Failure-compatible result type used for the renderer's fatal errors. */
module Wrappers {

  datatype Result<+R, +E> = Success(value: R) | Failure(error: E) {

    predicate IsFailure() {
      Failure?
    }

    function PropagateFailure<U>(): Result<U, E>
      requires Failure?
    {
      Failure(error)
    }

    function Extract(): R
      requires Success?
    {
      value
    }
  }
}
